=== FILE: README.md ===
# Refine pipeline of the Doc-to-Text parsing agent, in Dafny

This project models the document-refine side of the Doc-to-Text multi-agent
system. It also models the driver that runs that side and the strategy side
over a batch of PDF files.

The refine graph passes one document state through four stages. Each stage
has its own module:

- **extract** puts each strategy's per-page text into the state. The extraction agent is a parameter here.
- **refine_validate** (`RefineValidation`) decides per page whether the text needs refining.
  - A page whose stripped text is shorter than 50 characters is settled without the LLM.
  - A failed LLM call counts as "no refine needed".
- **refine** (`RefineAgent`) looks each page's validation up by the key `"{strategy}_{page_num}"`. Then:
  - a page without a validation is skipped;
  - a flagged page is sent to the LLM for refining;
  - any other page is recorded unchanged.
- **report** (`RefineReport`) builds the report record. It also covers:
  - the pure parts of the JSON and CSV outputs (file names, entry lengths, refine rate, CSV row join);
  - setting the stage to "complete".

The other modules:

- `RefinePrompts` builds the three user prompts the refine stages send.
- `UpstageParse` converts an Upstage Document Parse response into per-page records.
- `RefineGraph` holds the graph topology and the composed run.
- `Batch` holds the command-line driver:
  - input selection;
  - the per-file loops of the two modes;
  - the success/failure tally.
- `Config` holds the configuration constants of the strategy-selection side.

The LLM is an oracle: a function from the page's position in the run and the prompt to the elapsed time plus either an answer with its cost or a raised error. The driver likewise sees each graph run as an oracle that returns a final state or raises. Strings are sequences of code points, as Python's `str` is. Money and times are exact reals.

## Model

| member | source | states |
|---|---|---|
| UpstageParse.ElementText | tools/upstage_document_parse_tool.py:135-140 | An element's text is its markdown when that is non-empty, else its text when non-empty, else its html, else empty |
| UpstageParse.BoxOf | tools/upstage_document_parse_tool.py:147-157 | A point-list box takes (x0, y0) from corner 0 and (x1, y1) from corner 2, a missing coordinate reading 0. A number-list box takes entries 0 to 3 in order. Its text is the element text's first 100 characters |
| UpstageParse.SortedPages | tools/upstage_document_parse_tool.py:170 | The page numbers are listed once each, strictly ascending, and are exactly those some element carries |
| UpstageParse.InsertSorted | tools/upstage_document_parse_tool.py:170 | Inserting a page number keeps the list strictly ascending and adds exactly that number |
| UpstageParse.PagesFor | tools/upstage_document_parse_tool.py:170-178 | One page per key, in key order, carrying that page number and zero width and height; a page number appears exactly when it is a key |
| UpstageParse.ParsedPages | tools/upstage_document_parse_tool.py:106-191 | The parse never yields an empty list: no elements gives the single default page 1. Otherwise there is one page per distinct page number, ascending, each with width and height 0 |
| UpstageParse.PageKeysMembers | tools/upstage_document_parse_tool.py:126-132 | A page exists exactly when some element carries that page number |
| UpstageParse.GatherOffPage | tools/upstage_document_parse_tool.py:125-132 | A page number no element carries collects no text, box or table |
| UpstageParse.GatherCounts | tools/upstage_document_parse_tool.py:142-167 | Per page there is one text per element with non-blank text, one box per such element whose coordinates are a list of at least four entries, and one table entry per table element, blank or not |
| UpstageParse.GatherTextsNonBlank | tools/upstage_document_parse_tool.py:143-144 | Every text a page keeps is non-blank |
| UpstageParse.GatherTablesWithinLimit | tools/upstage_document_parse_tool.py:160-167 | Every table entry a page keeps holds at most 200 characters of text |
| UpstageParse.BlankPageListed | tools/upstage_document_parse_tool.py:129-132 | A page whose elements all have blank text is still emitted, with empty text |
| UpstageParse.BlankTexts | tools/upstage_document_parse_tool.py:143-144 | Elements with blank text contribute no text to their page |
| UpstageParse.MissingPageIsPageOne | tools/upstage_document_parse_tool.py:126 | An element without a page number lands on page 1 |
| UpstageParse.AscendingTail | tools/upstage_document_parse_tool.py:170 | The tail of a sorted key list holds every key but the first |
| UpstageParse.AscendingHead | tools/upstage_document_parse_tool.py:170 | The first key of a sorted key list is the least |
| UpstageParse.AscendingUnique | tools/upstage_document_parse_tool.py:170 | Two strictly ascending lists with the same members are equal, so the sorted key list is unique |
| UpstageParse.SortKeys | tools/upstage_document_parse_tool.py:170 | Sorting the dictionary keys gives each key once, in ascending order |
| UpstageParse.GatherStep | tools/upstage_document_parse_tool.py:125-167 | One more element adds its contribution to its own page only, after what that page held |
| UpstageParse.PageKeysStep | tools/upstage_document_parse_tool.py:129-132 | One more element adds exactly its page number to the dictionary keys |
| UpstageParse.GroupStep | tools/upstage_document_parse_tool.py:125-167 | One loop iteration keeps the dictionary equal to the grouping of the elements seen so far |
| UpstageParse.GroupByPage | tools/upstage_document_parse_tool.py:121-167 | The dictionary filled by the element loop has exactly the element page numbers as keys, each holding that page's contributions in input order |
| UpstageParse.EmitPages | tools/upstage_document_parse_tool.py:170-178 | One page per sorted key, in key order, built from what the dictionary gathered for that key |
| UpstageParse.ParseUpstageResponse | tools/upstage_document_parse_tool.py:106-191 | The single-pass algorithm computes exactly the reference parse |
| UpstageParse.EmissionAgrees | tools/upstage_document_parse_tool.py:170-189 | Emitting pages in sorted key order, then falling back to the default page, gives the reference parse |
| UpstageParse.Process | tools/upstage_document_parse_tool.py:193-206 | Fallback reprocessing returns the pages it was given |
| Text.Strip | agents/refine_validation_agent.py:57 | `strip()` is never longer than the text. It is empty exactly for blank text, and otherwise starts and ends with a non-space |
| Text.StripIsSlice | agents/refine_validation_agent.py:57 | `strip()` keeps one contiguous slice of the text, starting right after the leading white space |
| Text.BlankBeforeStrip | agents/refine_validation_agent.py:57 | Only white space comes before the slice `strip()` keeps |
| Text.BlankAfterStrip | agents/refine_validation_agent.py:57 | Only white space comes after the slice `strip()` keeps |
| Text.TrimStart | agents/refine_validation_agent.py:57 | Leading white space is removed, and only it |
| Text.TrimEnd | agents/refine_validation_agent.py:57 | Trailing white space is removed, and only it |
| Text.Prefix | prompts/refine_prompts.py:72 | `s[:n]` is a prefix of `s`, of length min(n, len(s)) |
| Text.IntToString | agents/refine_validation_agent.py:60 | `str(n)` is non-empty, made of digits and a leading '-' exactly for negative n |
| Text.NatToString | agents/refine_validation_agent.py:60 | `str(n)` of a natural number is all digits, with two or more digits exactly from 10 on |
| Text.DigitChar | agents/refine_validation_agent.py:60 | A decimal digit is the character with that offset from '0' |
| Text.IntToStringInjective | agents/refine_validation_agent.py:60 | Different integers print differently |
| Text.NatToStringInjective | agents/refine_validation_agent.py:60 | Different natural numbers print differently |
| Text.IntToStringThenText | prompts/refine_prompts.py:66-72 | A number followed by text that does not start like a number can be split back into the two |
| Text.JoinStartsWithFirst | prompts/refine_prompts.py:155 | A joined list starts with its first item |
| Text.JoinLength | prompts/refine_prompts.py:155 | The joined text's length is the parts' total length plus one separator between each pair of neighbours |
| Text.ReplaceAllLength | agents/refine_report_agent.py:103 | A replacement no longer than the pattern never lengthens the text, and one of the same length keeps its length |
| Text.ReplaceCharPointwise | agents/refine_report_agent.py:103 | Replacing one character by another keeps the length and changes exactly those positions |
| Text.ReplaceAbsent | agents/refine_report_agent.py:103 | Replacing a pattern that does not occur changes nothing |
| Text.RemoveTrailingPdf | agents/refine_report_agent.py:103 | Removing ".pdf" from a name whose only ".pdf" is at its end gives the stem |
| RefineModel.ExtractionId | agents/refine_agent.py:64 | The id starts with the strategy. The '_' after it is the id's last '_', so only the page number follows it |
| RefineModel.ExtractionIdInjective | agents/refine_validation_agent.py:60 | The id `"{strategy}_{page_num}"` determines both the strategy and the page number |
| RefineModel.PagesOf | agents/refine_validation_agent.py:52 | A strategy's pages are visited in order, each tagged with that strategy |
| RefineModel.Flatten | agents/refine_validation_agent.py:48-52 | The nested strategy/page loop visits every page once |
| RefineModel.FlattenOrder | agents/refine_validation_agent.py:48-52 | Page j of strategy k is visited right after all pages of the earlier strategies |
| RefinePrompts.HeadedSplits | prompts/refine_prompts.py:66-70 | A prompt's opening determines its page number and the rest of the prompt |
| RefinePrompts.RefineValidationPrompt | prompts/refine_prompts.py:65-76 | The validation prompt opens with the page number. Its length is bounded whatever the page length, since at most 2000 characters of the page reach it |
| RefinePrompts.RefineValidationPromptDetermines | prompts/refine_prompts.py:65-76 | Two validation prompts are equal exactly when their page numbers match and the first 2000 characters of the texts match |
| RefinePrompts.CatalogLines | prompts/refine_prompts.py:143-153 | One line per flagged catalog entry, so none is missing. Each line belongs to a flagged issue, and the list is empty exactly when nothing is flagged |
| RefinePrompts.CatalogLineAt | prompts/refine_prompts.py:143-153 | A flagged issue's line is listed right after the lines of the flagged issues before it in the catalog |
| RefinePrompts.CatalogLinesInOrder | prompts/refine_prompts.py:143-153 | The line of each flagged entry sits after the lines of the flagged entries before it, so the lines follow catalog order |
| RefinePrompts.IssueLinesFollowCatalog | prompts/refine_prompts.py:143-153 | The five `if`s list exactly the flagged issues of the five-issue catalog, in its order |
| RefinePrompts.CatalogLinesAreNotGeneric | prompts/refine_prompts.py:145-155 | No issue line coincides with the generic fallback line |
| RefinePrompts.IssueLinesEmptyIff | prompts/refine_prompts.py:143-155 | The list of issue lines is empty exactly when no known issue is flagged |
| RefinePrompts.JoinedIssuesAreNotGeneric | prompts/refine_prompts.py:155 | Joined issue lines never spell the generic fallback line |
| RefinePrompts.IssuesText | prompts/refine_prompts.py:143-155 | The issue text is the generic line exactly when no known issue is flagged. Otherwise it is the flagged catalog lines, in catalog order, joined by newlines |
| RefinePrompts.RefinePromptWithCarriesPage | prompts/refine_prompts.py:139-170 | Whatever the issue text, the refine prompt opens with the page number and carries the whole page, untruncated, just before the closing instructions |
| RefinePrompts.RefinePromptDetermines | prompts/refine_prompts.py:139-170 | With the same issue text, two refine prompts are equal exactly when the page numbers and whole texts match |
| RefinePrompts.RefineQualityPromptDetermines | prompts/refine_prompts.py:198-214 | With matching 1000-character originals, two quality prompts are equal exactly when the page numbers and the refined texts' first 1000 characters match |
| RefinePrompts.RefineQualityPrompt | prompts/refine_prompts.py:198-214 | The quality prompt opens with the page number. Its length is bounded whatever the text lengths, since at most 1000 characters of each text reach it |
| RefineValidation.ValidatePage | agents/refine_validation_agent.py:101-165 | The result carries the page's identity and the LLM call's elapsed time. <br>• Answered: missing fields take the defaults (no refine, no issues, confidence 0, empty reason) and the cost is the call's. <br>• Raised: no refine, no issues, confidence 0, cost 0, and the error recorded in the reason |
| RefineValidation.CheckPage | agents/refine_validation_agent.py:52-78 | A page under 50 stripped characters is "no refine", confidence 1, zero time and cost, with no LLM call. Any other page gets the LLM verdict. An error never asks for refining |
| RefineValidation.CheckPages | agents/refine_validation_agent.py:52-80 | One verdict per page, in order |
| RefineValidation.AddAll | agents/refine_validation_agent.py:69-80 | Adding the verdicts appends them in order and changes nothing else |
| RefineValidation.Run | agents/refine_validation_agent.py:37-99 | Every page of every strategy gets exactly one verdict, appended in visiting order after the earlier ones. Only the verdict list and the stage ("refine_validation_complete") change |
| RefineValidation.ShortPagesNeedNoLlm | agents/refine_validation_agent.py:57-71 | When every page is short the stage's outcome does not depend on the LLM |
| RefineValidation.CountNeed | agents/refine_validation_agent.py:87 | A count of verdicts never exceeds their number |
| RefineValidation.NeedCountsSplit | agents/refine_validation_agent.py:86-88 | "Need Refine" and "No Refine" counts add up to the total |
| RefineValidation.Summarize | agents/refine_validation_agent.py:86-88 | The summary's "No Refine", computed as a remainder, is the number of verdicts not asking for refining |
| RefineAgent.Index | agents/refine_agent.py:49-52 | Every verdict's key is in the index, and each key maps to a verdict with that key from the list |
| RefineAgent.IndexBy | agents/refine_agent.py:49-52 | Building a dictionary by key puts every item's key in it, each mapped to an item with that key from the list |
| RefineAgent.LookupIsLastMatch | agents/refine_agent.py:49-66 | Looking a page up by its string key finds the last verdict for that exact strategy and page |
| RefineAgent.RefinePage | agents/refine_agent.py:113-188 | The result always needs refining and is refined exactly when it has a refined text and no error. <br>• An answer without a text gives the original text. <br>• The character difference is the refined length minus the original length. <br>• A raised call gives no text, no actions, no improvements, zero diff and zero cost |
| RefineAgent.Unrefined | agents/refine_agent.py:81-95 | A page validation did not flag is recorded unrefined, with its original text and no time or cost |
| RefineAgent.DispatchPage | agents/refine_agent.py:60-95 | A page gets a result exactly when it has a verdict, and the result's need-refine flag is the verdict's. A flagged page is refined with its verdict's issues. An unflagged page is recorded unchanged |
| RefineAgent.DispatchPages | agents/refine_agent.py:55-95 | One dispatch per page, in visiting order |
| RefineAgent.Present | agents/refine_agent.py:64-95 | One result is kept per page that yields one. When every page yields a result, they are exactly those, in order |
| RefineAgent.PresentPositions | agents/refine_agent.py:64-95 | A page's result is stored at the position counting the pages before it that yielded one |
| RefineAgent.IndexedIffValidated | agents/refine_agent.py:49-69 | A page's key is in the index exactly when some verdict has its strategy and page number |
| RefineAgent.DispatchCountsValidated | agents/refine_agent.py:55-95 | The number of results equals the number of pages that have a verdict |
| RefineAgent.AddAll | agents/refine_agent.py:80-95 | Adding the results appends them in order and changes nothing else |
| RefineAgent.Run | agents/refine_agent.py:37-111 | At most one result per page is appended after the earlier ones. Only the result list and the stage ("refine_complete") change |
| RefineAgent.RunRecordsValidatedPages | agents/refine_agent.py:55-95 | Pages may lack a verdict. One result is appended per page that has one, and none for the others. Each page's result follows those of the earlier validated pages and is that page's dispatch |
| RefineAgent.ValidatedPagesIndexed | agents/refine_agent.py:49-69 | A page with a verdict for its strategy and page number is found in the index |
| RefineAgent.EveryValidatedPageRecorded | agents/refine_agent.py:55-95 | When every page has a verdict, each page gets exactly one result, in order, for its own strategy, page and text. It is refined only if its verdict asked for refining, and otherwise it is recorded unchanged |
| RefineAgent.DispatchedAll | agents/refine_agent.py:55-95 | When every page is dispatched to a result, the results kept are one per page, in order, each for its own page |
| RefineAgent.CountRefined | agents/refine_agent.py:99 | A count of results never exceeds their number |
| RefineAgent.RefinedCountsSplit | agents/refine_agent.py:98-100 | Refined and not-refined counts add up to the total |
| RefineAgent.Summarize | agents/refine_agent.py:98-105 | "Skipped", computed as a remainder, is the number of results not refined |
| RefineReport.SumBoundsEach | agents/refine_report_agent.py:48-52 | A sum of non-negative amounts is non-negative and at least each amount |
| RefineReport.SumAppend | agents/refine_report_agent.py:48-52 | Adding one more amount adds it to the sum |
| RefineReport.SumConcat | agents/refine_report_agent.py:48-52 | The sum over two lists is the sum of their sums |
| RefineReport.Amounts | agents/refine_report_agent.py:48-52 | The amounts summed are one per item, in order: each verdict's and each refine result's time or cost |
| RefineReport.BuildReport | agents/refine_report_agent.py:40-67 | The report's fields: <br>• strategy: the first extraction's strategy, or "unknown"; <br>• total: the number of refine results; <br>• "need refine": counted over verdicts; <br>• refined and skipped: together make up the total; <br>• lists: copied; <br>• time and cost totals: the verdicts' sum plus the refine results' sum, hence non-negative and at least every single item |
| RefineReport.ReportTotalsCoverBothStages | agents/refine_report_agent.py:48-52 | Each total is the sum over the verdicts followed by the refine results |
| RefineReport.Run | agents/refine_report_agent.py:30-93 | The stage stores the built report, sets the stage to "complete" and keeps both result lists |
| RefineReport.RefineRate | agents/refine_report_agent.py:117 | The refine rate is 0 for an empty report, and otherwise refined × 100 / total, which lies in 0..100 when refined ≤ total |
| RefineReport.ReportRateIsPercentage | agents/refine_report_agent.py:117 | A built report's refine rate is a percentage |
| RefineReport.SafeName | agents/refine_report_agent.py:103 | A safe name is never longer than the document name and contains no space. Position by position it is the name with ".pdf" removed, with each space turned into '_' |
| RefineReport.SafeNameDropsExtension | agents/refine_report_agent.py:103 | A name whose only ".pdf" is its ending loses it, and its spaces become '_' |
| RefineReport.PdfRemovalExample | agents/refine_report_agent.py:103 | One left-to-right removal pass turns "a..pdfpdf" into "a.pdf" |
| RefineReport.SafeNameCanKeepPdf | agents/refine_report_agent.py:103 | A safe name can still contain ".pdf", because removal can join a new one |
| RefineReport.JsonReportName | agents/refine_report_agent.py:102-104 | The JSON report name starts with the safe name and contains no space |
| RefineReport.JsonReportNameIff | agents/refine_report_agent.py:102-104 | Two documents share a JSON report file exactly when their safe names agree |
| RefineReport.CsvLogName | agents/refine_report_agent.py:167-169 | The CSV log name starts with the safe name, and its length is that of the safe name, the infix, the timestamp and ".csv" |
| RefineReport.CsvLogNameIff | agents/refine_report_agent.py:167-169 | Two CSV logs of one document share a file exactly when their timestamps agree |
| RefineReport.RefineEntryOf | agents/refine_report_agent.py:137-150 | A JSON refine entry reports the original length, and the refined length or 0 when there is no refined text |
| RefineReport.EntryLengthsAgreeWithDiff | agents/refine_report_agent.py:146-147 | For a refined page the two reported lengths differ by the page's character difference |
| RefineReport.ValidationEntryOf | agents/refine_report_agent.py:125-134 | A JSON validation entry copies the verdict's page, strategy, flag, issues, confidence and reason |
| RefineReport.Preview | agents/refine_report_agent.py:202-203 | A preview is empty exactly for absent or empty text. Otherwise it is the first 100 characters followed by "..." |
| RefineReport.RowOf | agents/refine_report_agent.py:181-210 | A CSV row's Yes/No flags mirror the verdict, its five issue flags and the matched result's refined flag. It has empty refine columns when nothing is matched |
| RefineReport.ByPageNum | agents/refine_report_agent.py:175 | The page-number dictionary has every result's page, each mapped to a result for that page |
| RefineReport.LastForPage | agents/refine_report_agent.py:175-179 | Finds a result for the page number that no later result shares, or none when no result has that page number |
| RefineReport.ByPageNumIsLast | agents/refine_report_agent.py:175-179 | The page-number dictionary maps each page to the last result for it |
| RefineReport.CsvRowsAsWritten | agents/refine_report_agent.py:175-212 | One row per verdict, in order. Each row is joined to the last refine result with the same page number, whatever its strategy |
| RefineReport.LastRefineFor | agents/refine_report_agent.py:175-179 | Finds a refine result with this strategy and page that no later result shares, or none when there is none |
| RefineReport.CsvRows | agents/refine_report_agent.py:175-212 | The corrected rows: one per verdict, in order. Each row is RowOf its verdict and the last refine result with the same strategy and page. "Refined" is Yes only if such a result is refined, and Yes whenever all such results are |
| RefineReport.CsvFile | agents/refine_report_agent.py:215-219 | The file as written holds the page-number-joined rows of CsvRowsAsWritten. It is written exactly when there is at least one verdict |
| RefineReport.CorrectedCsvFile | agents/refine_report_agent.py:215-219 | The corrected file holds the rows of CsvRows. It is written exactly when there is at least one verdict |
| RefineReport.LastMatchesAgree | agents/refine_report_agent.py:175-179 | When every result for a page number carries one strategy, the page-number lookup finds the same result as the strategy-and-page lookup |
| RefineReport.CsvFilesAgreeOnOneStrategy | agents/refine_report_agent.py:175-219 | The file as written equals the corrected file whenever each page's refine results carry the strategy of that page's verdicts |
| RefineReport.CsvJoinMixesStrategies | agents/refine_report_agent.py:175-179 | A two-strategy report where the file as written marks a refined page "No" and the corrected file marks it "Yes" |
| RefineGraph.EdgesApproachEnd | refine_graph.py:35-38 | Every edge moves one step closer to END |
| RefineGraph.RouteFrom | refine_graph.py:34-38 | The route from a node has one entry per remaining edge, starts at that node and never contains END |
| RefineGraph.RouteFromEntry | refine_graph.py:28-38 | From the entry point the graph visits extract, refine_validate, refine and report once each, in that order |
| RefineGraph.EntryRouteComposesStages | refine_graph.py:28-38 | Running the route is the four stages composed in order |
| RefineGraph.Invoke | refine_graph.py:15-43 | A run of the graph is the composition of the four stages and always ends "complete" with a report |
| RefineGraph.ChecksCoverPages | agents/refine_validation_agent.py:48-80 | The page loop produces a verdict for every page it visits, carrying that page's strategy and page number |
| RefineGraph.ValidatedAfterEarlier | refine_graph.py:35-36 | A page with a verdict keeps it when earlier verdicts come before |
| RefineGraph.ValidationCoversEveryPage | refine_graph.py:35-36 | After validation every extracted page has a verdict for its strategy and page |
| RefineGraph.ReportCountsEveryPage | refine_graph.py:35-38 | Starting with empty result lists, the report's total is the number of extracted pages, each refined or skipped |
| Batch.BaseName | main.py:49 | A file name is the part of the path after its last '/' |
| Batch.StrategyRecordOf | main.py:40-84 | A strategy record carries the final stage, selection and error count. A raised run records "fatal_error" with one error and no selection |
| Batch.RefineRecordOf | main.py:107-156 | A refine record carries the final stage, error count and the report's page counts, or 0 when there is no report. A raised run records "fatal_error" with one error and zero pages |
| Batch.RunStrategyMode | main.py:22-86 | One strategy record per input file, in input order |
| Batch.RunRefineMode | main.py:89-158 | One refine record per input file, in input order |
| Batch.CountIf | main.py:254-255 | A count of records never exceeds their number |
| Batch.CountIfSplits | main.py:254-255 | Counting a predicate and its negation covers every record once |
| Batch.CountIfUniform | main.py:254-255 | The count is 0 when no record qualifies and all of them when every one does |
| Batch.CountIfCongruent | main.py:254-255 | Predicates that agree on every record count the same |
| Batch.TallyAsWritten | main.py:254-259 | Success counts records whose status is "completed"; success and failure add up to the total |
| Batch.Tally | main.py:254-259 | Each run is counted against its own graph's final stage; success and failure add up to the total |
| Batch.TallyAgreesOnStrategyRuns | main.py:254-255 | On strategy runs alone both tallies agree |
| Batch.PipelineRecordComplete | main.py:111-123 | A file run through the modelled refine pipeline is recorded with the status "complete" |
| Batch.CompleteRefineRunsTally | main.py:254-255 | Refine records that all read "complete": the tally as written counts none as a success and all as failed; the corrected tally counts all as successes |
| Batch.RefineRunsCountedAsFailed | main.py:254-255 | Every refine run of the modelled pipeline ends "complete" (refine_report_agent.py line 91). So the tally as written counts none of them as a success, while the corrected tally counts all of them |
| Batch.SelectInputs | main.py:213-219 | A non-empty `--input` is the only file; otherwise a non-empty `--input-dir` is listed; otherwise the default directory is listed |
| Batch.InputTakesPrecedence | main.py:213-216 | A non-empty `--input` makes `--input-dir` irrelevant, and an empty one counts as absent |
| Batch.RunMode | main.py:239-247 | Each mode produces one record per file per graph. "both" gives the strategy records first, then the refine records |
| Batch.RunMain | main.py:213-259 | The driver stops exactly when there are no input files. Otherwise it runs the mode and reports the tally as written over all records |
| Config.Defaults | config.py:40-98 | The defaults: <br>• judge weights are 0.25, 0.25, 0.15, 0.25, 0.10, and selection weights are 0.8 and 0.2. Both sets are non-negative and each sums to 1; <br>• the pass threshold is 85 and borderline is 70, which lies strictly below it; <br>• all four axis thresholds are 0.5; <br>• 2 fallback attempts, minimum improvement 0.1; <br>• fallback priority is custom_split, layout_reorder, table_enhancement, without repeats; <br>• every price is non-negative, and the open-source tools cost 0 |
| Config.ScoreBand | config.py:88-92 | At or above pass is excellent; below borderline needs improvement; in between is good |
| Config.ScoreBandMonotone | config.py:88-92 | A higher score never falls into a lower band |
| Config.DefaultBands | config.py:88-92 | With the defaults: 85 and up is excellent, 70 up to 85 is good, and below 70 needs improvement |

## Left out

**External calls and I/O**
- HTTP calls to the Upstage and Solar APIs, and the API key, are left out. The LLM is an oracle. The JSON decoding of its reply and `calculate_cost` are folded into that oracle's answer.
- The Upstage HTTP call in tools/upstage_document_parse_tool.py is left out. Only the response conversion and `process` are modelled.
- `time.time()` is left out: elapsed times come from the oracle.
- Writing the JSON report and CSV log, `mkdir` and `print` are left out.

**Formatting**
- The float string formatting (`:.1f`, `:.2f`, `$`) is left out.
- The CSV log's confidence, time and cost columns are left out.
- The refine rate is modelled as an exact real, not as its formatted string.
- The timestamp in the CSV file name is a parameter.

**Not shown in the source**
- The extraction agent is not shown, so the "extract" node is a parameter.
- The strategy-selection graph, judge, fallback controller and selector are not part of this model. Their runs are an oracle, and only their configuration constants are modelled.
- state.py is not part of this model. These assumptions follow:
  - `add_refine_validation_result` and `add_refine_result` append;
  - the fields that the no-refine and error results leave out default to an empty list, 0 and an empty map.
  - `set_refine_report` (agents/refine_report_agent.py:90) stores the report in the state and changes nothing else.
  - RefineAgent.DispatchPage: every validation result object is truthy, so `if not validation_result` (agents/refine_agent.py:67) is true only when the lookup misses.
- `get_input_files`, `ensure_directories`, argparse, `--stage` and `--debug`/`DEBUG_MODE` are left out. The file listing is a parameter.
- `create_initial_refine_state` is not modelled.
  - In `Batch.RefineRunsCountedAsFailed` the initial state is any function of the path.
  - No stage reads the initial stage tag.
- LangGraph's compile step and `visualize_refine_graph` are left out.
- The system prompts are left out.
- The test scripts are left out.

**Data approximations**
- JSON `null` values in the Upstage response and in LLM answers are treated like absent keys. In Python, several such nulls raise instead. The list below names those that reach the modelled code. When a raise propagates out of the graph, main.py:140-156 records "fatal_error" for the file:
  - RefineValidation.ValidatePage: a null `confidence` reaches `confidence:.2f` in the progress line (agents/refine_validation_agent.py:83) and raises. The model keeps the default confidence 0.0.
  - RefineAgent.RefinePage: a null `refine_actions` reaches `len(...)` in the progress line (agents/refine_agent.py:80) and raises. The model keeps the empty default list.
  - UpstageParse.ElementText: a table whose markdown and text are falsy and whose `html` is null reaches `text[:200]` (tools/upstage_document_parse_tool.py:165) and raises. The model takes the text to be "".
  - UpstageParse.ElementText: a null `content` makes `.get` on None raise (tools/upstage_document_parse_tool.py:135-137). The model reads it as an empty content object.
  - UpstageParse.ParseUpstageResponse: a null `elements` passes the `"elements" in response` test at tools/upstage_document_parse_tool.py:118, and iterating None at line 125 raises. The model's `Response(None)` gives the single default page instead.
  - UpstageParse.PageOf: a null `page` makes the page key None, not 1 (tools/upstage_document_parse_tool.py:126). `sorted` at line 170 then raises if another element has an integer page. The model gives such elements page 1.
  - RefineValidation.ValidatePage: a null `issues` is stored as None, while the model stores an empty map. For a flagged page, `issues.get` at prompts/refine_prompts.py:144 raises inside the try of agents/refine_agent.py:123-173, which gives the error result. The report node then calls `val_result.issues.get(...)` (agents/refine_report_agent.py:188) for that verdict and raises.
  - The raises inside the Upstage tool reach the unshown extraction agent, so their effect on the run is not modelled.
- RefineAgent.RefinePage: a JSON `null` for `refined_text` makes Python's `len(None)` raise, which leads to the error result; the model treats it like an absent key and records the original text.
- Batch.RunStrategyMode: the console output after a record is appended (main.py:56-67, e.g. `S_total:.3f` on a selection whose score is not a number) is taken not to raise; if it raised, Python would append a second, "fatal_error" record for the same file.
- LLM answer fields of the wrong JSON type are not modelled. For example, `need_refine` is taken to be a boolean.
- Batch.BaseName: `Path.name` of a path ending in '/' or naming "." is not modelled; for those paths the model gives the empty string.
- Python floats are modelled as exact reals. In particular, the judge weights sum to exactly 1 here.

## Findings

| source | as written | input that shows it | evidently intended | confidence | as-written member | corrected member |
|---|---|---|---|---|---|---|
| main.py:254-255 | A run counts as a success only when its final status is "completed" | Any `--mode refine` run that does not raise. The refine graph's last stage sets "complete" (agents/refine_report_agent.py:91), and line 127 of main.py itself checks for "complete" | Refine runs succeed on "complete", strategy runs on "completed" | high; not executed | Batch.TallyAsWritten (the tally Batch.RunMain reports), shown by Batch.RefineRunsCountedAsFailed | Batch.Tally |
| agents/refine_report_agent.py:175-179 | CSV rows are joined to refine results by page number alone | A report with page 1 under strategy "a" (refined) and under strategy "b" (not refined). The "a" row is marked "No", because the dictionary keeps "b"'s result for page 1 | Join on strategy and page number, as the refine stage itself does (agents/refine_agent.py:64-65) | medium; not executed | RefineReport.CsvFile (the file written, from RefineReport.CsvRowsAsWritten), shown by RefineReport.CsvJoinMixesStrategies | RefineReport.CorrectedCsvFile (from RefineReport.CsvRows), agreeing with the written file by RefineReport.CsvFilesAgreeOnOneStrategy |

=== FILE: batch.dfy ===
/** The command-line driver: pick the input files, run the strategy graph,
    the refine graph or both over each file, record one result per run and
    count successes and failures. */
module Batch {
  import opened Wrappers
  import opened RefineModel
  import RefineValidation
  import RefineAgent
  import RefineGraph

  /** `--mode`; argparse admits only these three. */
  datatype Mode = StrategyMode | RefineMode | BothMode

  /** The final stage of a strategy run that succeeded. */
  const StrategyCompleted := "completed"

  /** The status recorded when running the graph raised. */
  const FatalError := "fatal_error"

  /** The last component of a path: what `Path.name` gives for a path that
      does not end in a separator. */
  function BaseName(path: string): (r: string)
    ensures |r| <= |path|
    ensures forall i :: 0 <= i < |r| ==> r[i] == path[|path| - |r| + i] && r[i] != '/'
    ensures |r| < |path| ==> path[|path| - |r| - 1] == '/'
    decreases |path|
  {
    if path == [] || path[|path| - 1] == '/' then []
    else
      var r := BaseName(path[..|path| - 1]);
      r + [path[|path| - 1]]
  }

  /** What the driver reads of the strategy graph's final state. The
      selection object is represented by the name of the selected strategy. */
  datatype StrategyOutcome = StrategyOutcome(
    currentStage: string,
    finalSelection: Option<string>,
    errorLog: seq<string>)

  /** Invoking the strategy graph on the `k`-th file: it returns a final
      state or raises. */
  type StrategyGraph = (nat, string) -> Result<StrategyOutcome>

  /** Invoking the refine graph on the `k`-th file. */
  type RefineGraphRun = (nat, string) -> Result<RefineState>

  /** One entry of `results`; the constructor is its "mode". */
  datatype RunRecord =
    | StrategyRecord(file: string, status: string, finalSelection: Option<string>, errorCount: nat)
    | RefineRecord(file: string, status: string, pagesRefined: nat, totalPages: nat, errorCount: nat)

  function ModeName(r: RunRecord): string {
    match r
    case StrategyRecord(_, _, _, _) => "strategy"
    case RefineRecord(_, _, _, _, _) => "refine"
  }

  /** One iteration of `run_strategy_mode`: a raised run is recorded as a
      fatal error with one error and no selection. */
  function StrategyRecordOf(k: nat, path: string, graph: StrategyGraph): (r: RunRecord)
    ensures r.StrategyRecord? && r.file == BaseName(path)
    ensures graph(k, path).Failure? ==>
      r.status == FatalError && r.finalSelection.None? && r.errorCount == 1
    ensures graph(k, path).Success? ==>
      && r.status == graph(k, path).value.currentStage
      && r.finalSelection == graph(k, path).value.finalSelection
      && r.errorCount == |graph(k, path).value.errorLog|
  {
    match graph(k, path)
    case Success(fs) => StrategyRecord(BaseName(path), fs.currentStage, fs.finalSelection, |fs.errorLog|)
    case Failure(_) => StrategyRecord(BaseName(path), FatalError, None, 1)
  }

  /** One iteration of `run_refine_mode`: the page counts come from the
      report, and are 0 when the final state has none or the run raised. */
  function RefineRecordOf(k: nat, path: string, graph: RefineGraphRun): (r: RunRecord)
    ensures r.RefineRecord? && r.file == BaseName(path)
    ensures graph(k, path).Failure? ==>
      r.status == FatalError && r.pagesRefined == 0 && r.totalPages == 0 && r.errorCount == 1
    ensures graph(k, path).Success? ==>
      var fs := graph(k, path).value;
      && r.status == fs.currentStage
      && r.errorCount == |fs.errorLog|
      && (fs.report.None? ==> r.pagesRefined == 0 && r.totalPages == 0)
      && (fs.report.Some? ==>
            r.pagesRefined == fs.report.value.pagesRefined && r.totalPages == fs.report.value.totalPages)
  {
    match graph(k, path)
    case Success(fs) =>
      var refined := if fs.report.Some? then fs.report.value.pagesRefined else 0;
      var total := if fs.report.Some? then fs.report.value.totalPages else 0;
      RefineRecord(BaseName(path), fs.currentStage, refined, total, |fs.errorLog|)
    case Failure(_) => RefineRecord(BaseName(path), FatalError, 0, 0, 1)
  }

  /** `run_strategy_mode`: one record per file, in input order, whether or
      not its run raised. */
  method RunStrategyMode(files: seq<string>, graph: StrategyGraph) returns (results: seq<RunRecord>)
    ensures |results| == |files|
    ensures forall i :: 0 <= i < |files| ==> results[i] == StrategyRecordOf(i, files[i], graph)
  {
    results := [];
    var k := 0;
    while k < |files|
      invariant 0 <= k <= |files|
      invariant |results| == k
      invariant forall i :: 0 <= i < k ==> results[i] == StrategyRecordOf(i, files[i], graph)
    {
      results := results + [StrategyRecordOf(k, files[k], graph)];
      k := k + 1;
    }
  }

  /** `run_refine_mode`: one record per file, in input order, whether or
      not its run raised. */
  method RunRefineMode(files: seq<string>, graph: RefineGraphRun) returns (results: seq<RunRecord>)
    ensures |results| == |files|
    ensures forall i :: 0 <= i < |files| ==> results[i] == RefineRecordOf(i, files[i], graph)
  {
    results := [];
    var k := 0;
    while k < |files|
      invariant 0 <= k <= |files|
      invariant |results| == k
      invariant forall i :: 0 <= i < k ==> results[i] == RefineRecordOf(i, files[i], graph)
    {
      results := results + [RefineRecordOf(k, files[k], graph)];
      k := k + 1;
    }
  }

  /** The refine graph as the refine modules define it, started from the
      state `init` builds for a file. */
  function RefinePipeline(init: string -> RefineState, extract: RefineState -> RefineState,
                          vllm: RefineValidation.ValidationLlm, rllm: RefineAgent.RefineLlm): RefineGraphRun
  {
    (k: nat, path: string) => Success(RefineGraph.Invoke(init(path), extract, vllm, rllm))
  }

  /** The number of records satisfying `ok`. */
  function CountIf(results: seq<RunRecord>, ok: RunRecord -> bool): (n: nat)
    ensures n <= |results|
    decreases |results|
  {
    if results == [] then 0
    else CountIf(results[..|results| - 1], ok) + (if ok(results[|results| - 1]) then 1 else 0)
  }

  /** Every record is counted either by `ok` or by its negation `nok`. */
  lemma {:induction false} CountIfSplits(results: seq<RunRecord>, ok: RunRecord -> bool, nok: RunRecord -> bool)
    requires forall i :: 0 <= i < |results| ==> nok(results[i]) == !ok(results[i])
    ensures CountIf(results, ok) + CountIf(results, nok) == |results|
    decreases |results|
  {
    if results != [] {
      var init := results[..|results| - 1];
      assert forall i :: 0 <= i < |init| ==> init[i] == results[i];
      CountIfSplits(init, ok, nok);
    }
  }

  /** When no record satisfies `ok` the count is 0; when all do, it is all of them. */
  lemma {:induction false} CountIfUniform(results: seq<RunRecord>, ok: RunRecord -> bool)
    ensures (forall i :: 0 <= i < |results| ==> !ok(results[i])) ==> CountIf(results, ok) == 0
    ensures (forall i :: 0 <= i < |results| ==> ok(results[i])) ==> CountIf(results, ok) == |results|
    decreases |results|
  {
    if results != [] {
      var init := results[..|results| - 1];
      assert forall i :: 0 <= i < |init| ==> init[i] == results[i];
      CountIfUniform(init, ok);
    }
  }

  /** Counting agrees for predicates that agree on every record. */
  lemma {:induction false} CountIfCongruent(results: seq<RunRecord>, ok1: RunRecord -> bool, ok2: RunRecord -> bool)
    requires forall i :: 0 <= i < |results| ==> ok1(results[i]) == ok2(results[i])
    ensures CountIf(results, ok1) == CountIf(results, ok2)
    decreases |results|
  {
    if results != [] {
      var init := results[..|results| - 1];
      assert forall i :: 0 <= i < |init| ==> init[i] == results[i];
      CountIfCongruent(init, ok1, ok2);
    }
  }

  datatype Summary = Summary(completed: nat, failed: nat, total: nat)

  /** The driver's test for success as written: the status must read
      "completed", which only the strategy graph ever sets. */
  predicate CompletedAsWritten(r: RunRecord) {
    r.status == StrategyCompleted
  }

  predicate NotCompletedAsWritten(r: RunRecord) {
    r.status != StrategyCompleted
  }

  /** The summary as the driver computes it: successes and failures are
      counted separately, and every run lands in exactly one of them. */
  function TallyAsWritten(results: seq<RunRecord>): (t: Summary)
    ensures t.total == |results| && t.completed + t.failed == t.total
    ensures t.completed == CountIf(results, CompletedAsWritten)
  {
    CountIfSplits(results, CompletedAsWritten, NotCompletedAsWritten);
    Summary(CountIf(results, CompletedAsWritten), CountIf(results, NotCompletedAsWritten), |results|)
  }

  /** A run succeeded when it reached its own graph's final stage: "completed"
      for the strategy graph, "complete" for the refine graph. */
  predicate Succeeded(r: RunRecord) {
    match r
    case StrategyRecord(_, status, _, _) => status == StrategyCompleted
    case RefineRecord(_, status, _, _, _) => status == StageComplete
  }

  predicate Failed(r: RunRecord) {
    !Succeeded(r)
  }

  /** The summary counting each run against its own graph's final stage. */
  function Tally(results: seq<RunRecord>): (t: Summary)
    ensures t.total == |results| && t.completed + t.failed == t.total
    ensures t.completed == CountIf(results, Succeeded)
  {
    CountIfSplits(results, Succeeded, Failed);
    Summary(CountIf(results, Succeeded), CountIf(results, Failed), |results|)
  }

  /** On strategy runs alone the two tallies agree: the defect only shows
      once refine runs are counted. */
  lemma TallyAgreesOnStrategyRuns(results: seq<RunRecord>)
    requires forall i :: 0 <= i < |results| ==> results[i].StrategyRecord?
    ensures Tally(results) == TallyAsWritten(results)
  {
    CountIfCongruent(results, Succeeded, CompletedAsWritten);
    CountIfCongruent(results, Failed, NotCompletedAsWritten);
  }

  /** A file run through the refine pipeline is recorded with the stage "complete". */
  lemma PipelineRecordComplete(k: nat, path: string, init: string -> RefineState,
                               extract: RefineState -> RefineState,
                               vllm: RefineValidation.ValidationLlm, rllm: RefineAgent.RefineLlm)
    ensures var r := RefineRecordOf(k, path, RefinePipeline(init, extract, vllm, rllm));
      r.RefineRecord? && r.status == StageComplete
  {
    var fs := RefineGraph.Invoke(init(path), extract, vllm, rllm);
    assert RefinePipeline(init, extract, vllm, rllm)(k, path) == Success(fs);
    assert fs.currentStage == StageComplete;
  }

  /** Every run of the refine pipeline that does not raise ends in
      "complete", so the driver's tally reports each one as failed, while
      counting each against its own final stage reports each as a success. */
  lemma RefineRunsCountedAsFailed(files: seq<string>, init: string -> RefineState,
                                  extract: RefineState -> RefineState,
                                  vllm: RefineValidation.ValidationLlm, rllm: RefineAgent.RefineLlm,
                                  results: seq<RunRecord>)
    requires |results| == |files|
    requires forall i :: 0 <= i < |files| ==>
      results[i] == RefineRecordOf(i, files[i], RefinePipeline(init, extract, vllm, rllm))
    ensures TallyAsWritten(results).completed == 0
    ensures TallyAsWritten(results).failed == |files|
    ensures Tally(results).completed == |files|
  {
    forall i | 0 <= i < |files|
      ensures results[i].RefineRecord? && results[i].status == StageComplete
    {
      PipelineRecordComplete(i, files[i], init, extract, vllm, rllm);
    }
    CompleteRefineRunsTally(results);
  }

  /** Records of refine runs that all reached "complete": none counts as a
      success as written, all do when counted against their own stage. */
  lemma CompleteRefineRunsTally(results: seq<RunRecord>)
    requires forall i :: 0 <= i < |results| ==> results[i].RefineRecord? && results[i].status == StageComplete
    ensures TallyAsWritten(results).completed == 0
    ensures TallyAsWritten(results).failed == |results|
    ensures Tally(results).completed == |results|
  {
    assert |StageComplete| != |StrategyCompleted|;
    assert forall i :: 0 <= i < |results| ==> !CompletedAsWritten(results[i]);
    CountIfUniform(results, CompletedAsWritten);
    CountIfUniform(results, Succeeded);
  }

  /** The arguments the driver reads: `--mode`, `--input`, `--input-dir`. */
  datatype Args = Args(mode: Mode, input: Option<string>, inputDir: Option<string>)

  /** `get_input_files`: the files of the given directory, or of the default
      input directory when given none. The file system is not modelled. */
  type Lister = Option<string> -> seq<string>

  predicate Given(o: Option<string>) {
    o.Some? && o.value != []
  }

  /** The input files: a non-empty `--input` names the only file; otherwise a
      non-empty `--input-dir` is listed; otherwise the default directory. */
  function SelectInputs(args: Args, list: Lister): (r: seq<string>)
    ensures Given(args.input) ==> r == [args.input.value]
    ensures !Given(args.input) && Given(args.inputDir) ==> r == list(args.inputDir)
    ensures !Given(args.input) && !Given(args.inputDir) ==> r == list(None)
  {
    if Given(args.input) then [args.input.value]
    else if Given(args.inputDir) then list(args.inputDir)
    else list(None)
  }

  /** A non-empty `--input` wins over whatever `--input-dir` says, and an
      empty one counts as absent. */
  lemma InputTakesPrecedence(mode: Mode, path: string, d1: Option<string>, d2: Option<string>, list: Lister)
    ensures path != [] ==> SelectInputs(Args(mode, Some(path), d1), list) == SelectInputs(Args(mode, Some(path), d2), list)
    ensures path == [] ==> SelectInputs(Args(mode, Some(path), d1), list) == SelectInputs(Args(mode, None, d1), list)
  {
  }

  /** The mode dispatch of `main`: "both" runs strategy first, then refine,
      over the same files. */
  method RunMode(mode: Mode, files: seq<string>, strategyGraph: StrategyGraph, refineGraph: RefineGraphRun)
    returns (results: seq<RunRecord>)
    ensures |results| == (if mode == BothMode then 2 * |files| else |files|)
    ensures mode != RefineMode ==>
      forall i :: 0 <= i < |files| ==> results[i] == StrategyRecordOf(i, files[i], strategyGraph)
    ensures mode == RefineMode ==>
      forall i :: 0 <= i < |files| ==> results[i] == RefineRecordOf(i, files[i], refineGraph)
    ensures mode == BothMode ==>
      forall i :: 0 <= i < |files| ==> results[|files| + i] == RefineRecordOf(i, files[i], refineGraph)
  {
    match mode {
      case StrategyMode =>
        results := RunStrategyMode(files, strategyGraph);
      case RefineMode =>
        results := RunRefineMode(files, refineGraph);
      case BothMode =>
        var strategyResults := RunStrategyMode(files, strategyGraph);
        var refineResults := RunRefineMode(files, refineGraph);
        results := strategyResults + refineResults;
        assert forall i :: 0 <= i < |files| ==> results[i] == strategyResults[i];
        assert forall i :: 0 <= i < |files| ==> results[|files| + i] == refineResults[i];
    }
  }

  datatype MainOutcome = NoInputFiles | Ran(files: seq<string>, results: seq<RunRecord>, summary: Summary)

  /** `main` after argument parsing: stop when there is nothing to process,
      otherwise run the chosen mode over the selected files and tally the runs
      as the driver does, counting only "completed" as a success (see
      `RefineRunsCountedAsFailed` for what that does to refine runs, and
      `Tally` for the count against each graph's own final stage). */
  method RunMain(args: Args, list: Lister, strategyGraph: StrategyGraph, refineGraph: RefineGraphRun)
    returns (o: MainOutcome)
    ensures o.NoInputFiles? <==> SelectInputs(args, list) == []
    ensures o.Ran? ==> o.files == SelectInputs(args, list)
    ensures o.Ran? ==> |o.results| == (if args.mode == BothMode then 2 * |o.files| else |o.files|)
    ensures o.Ran? ==> o.summary == TallyAsWritten(o.results)
  {
    var files := SelectInputs(args, list);
    if files == [] {
      return NoInputFiles;
    }
    var results := RunMode(args.mode, files, strategyGraph, refineGraph);
    o := Ran(files, results, TallyAsWritten(results));
  }
}

=== FILE: config.dfy ===
/** The configuration constants of the strategy-selection side: judge and
    selection weights, score bands, per-axis validation thresholds, fallback
    settings and per-page prices. The code that reads them is not part of
    this model; only the values and the relations between them are. */
module Config {
  /** `JUDGE_WEIGHTS`: the weight of each 0-100 judge score in the total. */
  datatype JudgeWeights = JudgeWeights(read: real, sent: real, noise: real, table: real, fig: real)

  /** `SCORE_THRESHOLDS`. */
  datatype ScoreThresholds = ScoreThresholds(pass: int, borderline: int)

  /** `SELECTION_WEIGHTS`: quality score against processing speed. */
  datatype SelectionWeights = SelectionWeights(score: real, speed: real)

  /** `VALIDATION_THRESHOLDS`: each axis passes at or above its threshold. */
  datatype ValidationThresholds = ValidationThresholds(read: real, sent: real, noise: real, table: real)

  datatype Settings = Settings(
    judgeWeights: JudgeWeights,
    scoreThresholds: ScoreThresholds,
    selectionWeights: SelectionWeights,
    validationThresholds: ValidationThresholds,
    maxFallbackAttempts: nat,
    minImprovementDelta: real,
    fallbackPriority: seq<string>,
    pricing: map<string, real>)

  const CustomSplit := "custom_split"
  const LayoutReorder := "layout_reorder"
  const TableEnhancement := "table_enhancement"

  /** The extraction tools that are open source and therefore free. */
  const FreeTools: set<string> := {"pdfplumber", "pdfminer", "pypdfium2"}

  /** The tools the pricing table knows. */
  const PricedTools: set<string> := {"upstage_ocr", "upstage_document_parse"} + FreeTools

  function Total(w: JudgeWeights): real {
    w.read + w.sent + w.noise + w.table + w.fig
  }

  /** The values `config.py` sets. The judge weights are 0.25, 0.25, 0.15,
      0.25 and 0.10, the selection weights 0.8 and 0.2, and the pass and
      borderline thresholds 85 and 70. The judge and the selection weights are
      non-negative and each sum to 1; passing sits strictly above borderline; fallbacks are tried in a fixed
      order without repeats; no tool has a negative price and the open-source
      tools are free. */
  function Defaults(): (c: Settings)
    ensures var w := c.judgeWeights;
      w.read >= 0.0 && w.sent >= 0.0 && w.noise >= 0.0 && w.table >= 0.0 && w.fig >= 0.0
    ensures Total(c.judgeWeights) == 1.0
    ensures c.selectionWeights.score >= 0.0 && c.selectionWeights.speed >= 0.0
    ensures c.selectionWeights.score + c.selectionWeights.speed == 1.0
    ensures 0 <= c.scoreThresholds.borderline < c.scoreThresholds.pass <= 100
    ensures c.judgeWeights == JudgeWeights(0.25, 0.25, 0.15, 0.25, 0.10)
    ensures c.selectionWeights == SelectionWeights(0.8, 0.2)
    ensures c.scoreThresholds == ScoreThresholds(85, 70)
    ensures var v := c.validationThresholds;
      v.read == v.sent == v.noise == v.table == 0.5
    ensures c.maxFallbackAttempts == 2 && c.minImprovementDelta == 0.1
    ensures c.fallbackPriority == [CustomSplit, LayoutReorder, TableEnhancement]
    ensures forall i, j :: 0 <= i < j < |c.fallbackPriority| ==> c.fallbackPriority[i] != c.fallbackPriority[j]
    ensures c.pricing.Keys == PricedTools
    ensures forall t :: t in c.pricing ==> c.pricing[t] >= 0.0
    ensures forall t :: t in FreeTools ==> t in c.pricing && c.pricing[t] == 0.0
  {
    var c := Settings(
      JudgeWeights(0.25, 0.25, 0.15, 0.25, 0.10),
      ScoreThresholds(85, 70),
      SelectionWeights(0.8, 0.2),
      ValidationThresholds(0.5, 0.5, 0.5, 0.5),
      2,
      0.1,
      [CustomSplit, LayoutReorder, TableEnhancement],
      map[
        "upstage_ocr" := 0.0015,
        "upstage_document_parse" := 0.01,
        "pdfplumber" := 0.0,
        "pdfminer" := 0.0,
        "pypdfium2" := 0.0]);
    assert c.fallbackPriority[0][0] == 'c' && c.fallbackPriority[1][0] == 'l' && c.fallbackPriority[2][0] == 't';
    c
  }

  /** The three bands the comments of `SCORE_THRESHOLDS` name. */
  datatype Band = Excellent | Good | NeedsImprovement

  function BandRank(b: Band): nat {
    match b
    case NeedsImprovement => 0
    case Good => 1
    case Excellent => 2
  }

  /** The band of a 0-100 score: at or above the pass threshold is
      excellent, from borderline up to pass is good, below borderline needs
      improvement. */
  function ScoreBand(t: ScoreThresholds, score: real): (b: Band)
    requires t.borderline < t.pass
    ensures b == Excellent <==> score >= t.pass as real
    ensures b == NeedsImprovement <==> score < t.borderline as real
  {
    if score >= t.pass as real then Excellent
    else if score >= t.borderline as real then Good
    else NeedsImprovement
  }

  /** A higher score never falls into a lower band. */
  lemma ScoreBandMonotone(t: ScoreThresholds, s1: real, s2: real)
    requires t.borderline < t.pass
    requires s1 <= s2
    ensures BandRank(ScoreBand(t, s1)) <= BandRank(ScoreBand(t, s2))
  {
  }

  /** With the default thresholds: 85 and up is excellent, 70 up to 85 is
      good, below 70 needs improvement. */
  lemma DefaultBands(score: real)
    ensures var t := Defaults().scoreThresholds;
      && (score >= 85.0 ==> ScoreBand(t, score) == Excellent)
      && (70.0 <= score < 85.0 ==> ScoreBand(t, score) == Good)
      && (score < 70.0 ==> ScoreBand(t, score) == NeedsImprovement)
  {
  }
}

=== FILE: refine_agent.dfy ===
/** Stage 3 of the refine pipeline: refine the pages validation flagged and
    record the others unchanged. Validations are looked up by the string key
    `"{strategy}_{page_num}"`; a page without one gets no result. */
module RefineAgent {
  import opened Wrappers
  import opened Text
  import opened RefineModel
  import opened RefinePrompts

  const NoRefineActions: seq<string> := []
  const NoImprovements: map<string, int> := map[]

  /** The fields of the LLM's JSON answer the stage reads; each may be missing. */
  datatype RefineReply = RefineReply(
    refinedText: Option<string>,
    refineActions: Option<seq<string>>,
    improvements: Option<map<string, int>>)

  /** The LLM, asked for the `k`-th page of the run with the given prompt. */
  type RefineLlm = (nat, string) -> LlmCall<RefineReply>

  /** The key `run` files a validation under. */
  function KeyOf(v: ValidationResult): string {
    ExtractionId(v.strategy, v.pageNum)
  }

  /** A dictionary filled in list order under `key`: a later item for the
      same key replaces an earlier one. */
  function IndexBy<T>(items: seq<T>, key: T -> string): (m: map<string, T>)
    ensures forall i :: 0 <= i < |items| ==> key(items[i]) in m
    ensures forall k :: k in m ==> key(m[k]) == k && m[k] in items
    decreases |items|
  {
    if items == [] then map[]
    else
      var m := IndexBy(items[..|items| - 1], key);
      assert forall i :: 0 <= i < |items| - 1 ==> items[..|items| - 1][i] == items[i];
      m[key(items[|items| - 1]) := items[|items| - 1]]
  }

  /** `validation_dict`: each validation filed under its key, a later one
      replacing an earlier one. */
  function Index(vs: seq<ValidationResult>): (m: map<string, ValidationResult>)
    ensures forall i :: 0 <= i < |vs| ==> KeyOf(vs[i]) in m
    ensures forall key :: key in m ==> KeyOf(m[key]) == key && m[key] in vs
  {
    IndexBy(vs, KeyOf)
  }

  /** `validation_dict.get(key)`. */
  function Lookup(m: map<string, ValidationResult>, key: string): Option<ValidationResult> {
    if key in m then Some(m[key]) else None
  }

  /** Reference definition: the last validation for this strategy and page. */
  function LastMatch(vs: seq<ValidationResult>, strategy: string, pageNum: int): Option<ValidationResult>
    decreases |vs|
  {
    if vs == [] then None
    else if vs[|vs| - 1].strategy == strategy && vs[|vs| - 1].pageNum == pageNum then Some(vs[|vs| - 1])
    else LastMatch(vs[..|vs| - 1], strategy, pageNum)
  }

  /** Looking a page up by its string key finds the last validation for that
      very strategy and page: two different pairs never share a key. */
  lemma {:induction false} LookupIsLastMatch(vs: seq<ValidationResult>, strategy: string, pageNum: int)
    ensures Lookup(Index(vs), ExtractionId(strategy, pageNum)) == LastMatch(vs, strategy, pageNum)
    decreases |vs|
  {
    if vs != [] {
      var last := vs[|vs| - 1];
      assert Index(vs) == Index(vs[..|vs| - 1])[KeyOf(last) := last];
      if last.strategy == strategy && last.pageNum == pageNum {
      } else {
        if KeyOf(last) == ExtractionId(strategy, pageNum) {
          ExtractionIdInjective(last.strategy, last.pageNum, strategy, pageNum);
        }
        LookupIsLastMatch(vs[..|vs| - 1], strategy, pageNum);
      }
    }
  }

  /** `_refine_page`: the LLM's text (or the original, when the answer has
      none) becomes the refined text; a raised call leaves the page
      unrefined and records the error. The page needs refining either way. */
  function RefinePage(k: nat, pageText: string, pageNum: int, strategy: string, issues: Issues, llm: RefineLlm)
    : (r: RefineResult)
    ensures r.pageNum == pageNum && r.strategy == strategy && r.originalText == pageText
    ensures r.extractionId == ExtractionId(strategy, pageNum)
    ensures r.needRefine
    ensures r.processingTimeMs == llm(k, RefinePrompt(pageText, pageNum, issues)).elapsedMs
    ensures r.refined <==> r.refinedText.Some?
    ensures r.refined <==> r.error.None?
    ensures r.refined ==> r.characterDiff == |r.refinedText.value| - |pageText|
    ensures !r.refined ==>
      r.llmCostUsd == 0.0 && r.refineActions == [] && r.improvements == map[] && r.characterDiff == 0
    ensures match llm(k, RefinePrompt(pageText, pageNum, issues)).outcome
      case Raised(msg) => r.error == Some(msg)
      case Answered(reply, cost) =>
        && r.refined && r.llmCostUsd == cost
        && (reply.refinedText.None? ==> r.refinedText == Some(pageText) && r.characterDiff == 0)
        && (reply.refinedText.Some? ==> r.refinedText == reply.refinedText)
        && (reply.refineActions.None? ==> r.refineActions == [])
        && (reply.refineActions.Some? ==> r.refineActions == reply.refineActions.value)
        && (reply.improvements.None? ==> r.improvements == map[])
        && (reply.improvements.Some? ==> r.improvements == reply.improvements.value)
  {
    var call := llm(k, RefinePrompt(pageText, pageNum, issues));
    match call.outcome
    case Answered(reply, cost) =>
      var refined := reply.refinedText.GetOr(pageText);
      RefineResult(
        pageNum, ExtractionId(strategy, pageNum), strategy, pageText,
        Some(refined), true, true,
        reply.refineActions.GetOr([]), |refined| - |pageText|, reply.improvements.GetOr(map[]),
        call.elapsedMs, cost, None)
    case Raised(msg) =>
      RefineResult(
        pageNum, ExtractionId(strategy, pageNum), strategy, pageText,
        None, true, false, NoRefineActions, 0, NoImprovements,
        call.elapsedMs, 0.0, Some(msg))
  }

  /** The record `run` writes for a page validation did not flag. */
  function Unrefined(page: PageRef): (r: RefineResult)
    ensures r.pageNum == page.page.pageNum && r.strategy == page.strategy
    ensures r.originalText == page.page.text && r.refinedText.None?
    ensures !r.needRefine && !r.refined && r.error.None?
    ensures r.processingTimeMs == 0.0 && r.llmCostUsd == 0.0
  {
    RefineResult(
      page.page.pageNum, ExtractionId(page.strategy, page.page.pageNum), page.strategy,
      page.page.text, None, false, false, NoRefineActions, 0, NoImprovements, 0.0, 0.0, None)
  }

  /** One iteration of the page loop of `run`: nothing when the page has no
      validation, a refine attempt when validation asked for one, and the
      unchanged page otherwise. */
  function DispatchPage(k: nat, page: PageRef, index: map<string, ValidationResult>, llm: RefineLlm)
    : (r: Option<RefineResult>)
    ensures r.Some? <==> ExtractionId(page.strategy, page.page.pageNum) in index
    ensures r.Some? ==>
      && r.value.pageNum == page.page.pageNum && r.value.strategy == page.strategy
      && r.value.originalText == page.page.text
      && r.value.needRefine == index[ExtractionId(page.strategy, page.page.pageNum)].needRefine
      && (r.value.refined ==> r.value.needRefine)
    ensures r.Some? && !r.value.needRefine ==> r == Some(Unrefined(page))
    ensures r.Some? && r.value.needRefine ==>
      var v := index[ExtractionId(page.strategy, page.page.pageNum)];
      r == Some(RefinePage(k, page.page.text, page.page.pageNum, page.strategy, v.issues, llm))
  {
    match Lookup(index, ExtractionId(page.strategy, page.page.pageNum))
    case None => None
    case Some(v) =>
      if v.needRefine then Some(RefinePage(k, page.page.text, page.page.pageNum, page.strategy, v.issues, llm))
      else Some(Unrefined(page))
  }

  /** What each iteration of the page loop records, from the `k`-th page on. */
  function DispatchPages(pages: seq<PageRef>, k: nat, index: map<string, ValidationResult>, llm: RefineLlm)
    : (r: seq<Option<RefineResult>>)
    ensures |r| == |pages|
    ensures forall i :: 0 <= i < |pages| ==> r[i] == DispatchPage(k + i, pages[i], index, llm)
  {
    seq(|pages|, i requires 0 <= i < |pages| => DispatchPage(k + i, pages[i], index, llm))
  }

  /** The number of values present. */
  function CountSome<T>(os: seq<Option<T>>): (n: nat)
    ensures n <= |os|
    decreases |os|
  {
    if os == [] then 0 else CountSome(os[..|os| - 1]) + (if os[|os| - 1].Some? then 1 else 0)
  }

  /** The values present, in order: what the appends of the loop add up to. */
  function Present<T>(os: seq<Option<T>>): (r: seq<T>)
    ensures |r| == CountSome(os)
    ensures (forall i :: 0 <= i < |os| ==> os[i].Some?) ==>
      |r| == |os| && forall i :: 0 <= i < |os| ==> Some(r[i]) == os[i]
    decreases |os|
  {
    if os == [] then []
    else
      var init := os[..|os| - 1];
      assert forall i :: 0 <= i < |init| ==> init[i] == os[i];
      match os[|os| - 1]
      case None => Present(init)
      case Some(v) => Present(init) + [v]
  }

  /** Each value present lands right after the values present before it:
      the values keep their order and nothing else is added. */
  lemma {:induction false} PresentPositions<T>(os: seq<Option<T>>)
    ensures forall i :: 0 <= i < |os| && os[i].Some? ==>
      CountSome(os[..i]) < |Present(os)| && Present(os)[CountSome(os[..i])] == os[i].value
    decreases |os|
  {
    if os != [] {
      var init := os[..|os| - 1];
      PresentPositions(init);
      assert Present(os)[..|Present(init)|] == Present(init);
      forall i | 0 <= i < |os| && os[i].Some?
        ensures CountSome(os[..i]) < |Present(os)| && Present(os)[CountSome(os[..i])] == os[i].value
      {
        if i < |os| - 1 {
          assert os[..i] == init[..i] && init[i] == os[i];
        } else {
          assert os[..i] == init;
        }
      }
    }
  }

  /** `state = add_refine_result(state, r)` for each result in turn. */
  function AddAll(s: RefineState, rs: seq<RefineResult>): (r: RefineState)
    ensures r == s.(refineResults := s.refineResults + rs)
    decreases |rs|
  {
    if rs == [] then
      assert s.refineResults + rs == s.refineResults;
      s
    else
      var r := AddAll(AddRefineResult(s, rs[0]), rs[1..]);
      assert s.refineResults + [rs[0]] + rs[1..] == s.refineResults + rs;
      r
  }

  /** `RefineAgent.run`. */
  function Run(s: RefineState, llm: RefineLlm): (r: RefineState)
    ensures r.currentStage == StageRefined
    ensures r == s.(refineResults := r.refineResults, currentStage := StageRefined)
    ensures |s.refineResults| <= |r.refineResults| <= |s.refineResults| + TotalPages(s.extractionResults)
    ensures r.refineResults[..|s.refineResults|] == s.refineResults
  {
    var rs := Present(DispatchPages(Flatten(s.extractionResults), 0, Index(s.validationResults), llm));
    assert (s.refineResults + rs)[..|s.refineResults|] == s.refineResults;
    AddAll(s, rs).(currentStage := StageRefined)
  }

  /** A page with a validation for its strategy and page number is in the index. */
  lemma ValidatedPagesIndexed(vs: seq<ValidationResult>, pages: seq<PageRef>)
    requires forall p :: p in pages ==> Validated(vs, p)
    ensures forall i :: 0 <= i < |pages| ==> ExtractionId(pages[i].strategy, pages[i].page.pageNum) in Index(vs)
  {
    forall i | 0 <= i < |pages|
      ensures ExtractionId(pages[i].strategy, pages[i].page.pageNum) in Index(vs)
    {
      assert pages[i] in pages;
      var j :| 0 <= j < |vs| && vs[j].strategy == pages[i].strategy && vs[j].pageNum == pages[i].page.pageNum;
      assert KeyOf(vs[j]) == ExtractionId(pages[i].strategy, pages[i].page.pageNum);
    }
  }

  /** Some validation is for this page's strategy and page number. */
  predicate Validated(vs: seq<ValidationResult>, p: PageRef) {
    exists j :: 0 <= j < |vs| && vs[j].strategy == p.strategy && vs[j].pageNum == p.page.pageNum
  }

  /** The number of pages with a validation for their strategy and page number. */
  ghost function CountValidated(vs: seq<ValidationResult>, pages: seq<PageRef>): nat
    decreases |pages|
  {
    if pages == [] then 0
    else CountValidated(vs, pages[..|pages| - 1]) + (if Validated(vs, pages[|pages| - 1]) then 1 else 0)
  }

  /** A page's key is in the index exactly when some validation is for its
      strategy and page number. */
  lemma IndexedIffValidated(vs: seq<ValidationResult>, p: PageRef)
    ensures ExtractionId(p.strategy, p.page.pageNum) in Index(vs) <==> Validated(vs, p)
  {
    var key := ExtractionId(p.strategy, p.page.pageNum);
    if key in Index(vs) {
      var v := Index(vs)[key];
      var j :| 0 <= j < |vs| && vs[j] == v;
      ExtractionIdInjective(v.strategy, v.pageNum, p.strategy, p.page.pageNum);
    }
    if Validated(vs, p) {
      var j :| 0 <= j < |vs| && vs[j].strategy == p.strategy && vs[j].pageNum == p.page.pageNum;
      assert KeyOf(vs[j]) == key;
    }
  }

  /** The dispatches of a prefix of the pages are a prefix of the dispatches. */
  lemma DispatchPrefix(pages: seq<PageRef>, index: map<string, ValidationResult>, llm: RefineLlm, i: nat)
    requires i <= |pages|
    ensures DispatchPages(pages, 0, index, llm)[..i] == DispatchPages(pages[..i], 0, index, llm)
  {
  }

  /** The loop records one result per page that has a validation. */
  lemma {:induction false} DispatchCountsValidated(vs: seq<ValidationResult>, pages: seq<PageRef>, llm: RefineLlm)
    ensures CountSome(DispatchPages(pages, 0, Index(vs), llm)) == CountValidated(vs, pages)
    decreases |pages|
  {
    if pages != [] {
      var init := pages[..|pages| - 1];
      var os := DispatchPages(pages, 0, Index(vs), llm);
      DispatchCountsValidated(vs, init, llm);
      DispatchPrefix(pages, Index(vs), llm, |pages| - 1);
      assert os[..|os| - 1] == DispatchPages(init, 0, Index(vs), llm);
      IndexedIffValidated(vs, pages[|pages| - 1]);
    }
  }

  /** Whatever pages have validations: a page without one gets no result, and
      the `i`-th page, when it has one, gets the result of its dispatch right
      after the results of the validated pages before it. */
  lemma RunRecordsValidatedPages(s: RefineState, llm: RefineLlm)
    ensures var r := Run(s, llm);
      var pages := Flatten(s.extractionResults);
      var vs := s.validationResults;
      var n := |s.refineResults|;
      && |r.refineResults| == n + CountValidated(vs, pages)
      && forall i :: 0 <= i < |pages| && Validated(vs, pages[i]) ==>
        && n + CountValidated(vs, pages[..i]) < |r.refineResults|
        && Some(r.refineResults[n + CountValidated(vs, pages[..i])]) == DispatchPage(i, pages[i], Index(vs), llm)
  {
    var pages := Flatten(s.extractionResults);
    var vs := s.validationResults;
    var index := Index(vs);
    var os := DispatchPages(pages, 0, index, llm);
    var all := Run(s, llm).refineResults;
    assert all == s.refineResults + Present(os);
    PresentPositions(os);
    DispatchCountsValidated(vs, pages, llm);
    forall i | 0 <= i < |pages| && Validated(vs, pages[i])
      ensures CountSome(os[..i]) == CountValidated(vs, pages[..i]) && os[i].Some?
    {
      DispatchPrefix(pages, index, llm, i);
      DispatchCountsValidated(vs, pages[..i], llm);
      IndexedIffValidated(vs, pages[i]);
    }
  }

  /** `r` is a result for `page`: same strategy, page number and text; it is
      refined only if refining was asked for, and otherwise it is the
      unchanged record of the page. */
  predicate RecordsPage(r: RefineResult, page: PageRef) {
    && r.strategy == page.strategy && r.pageNum == page.page.pageNum
    && r.originalText == page.page.text
    && (r.refined ==> r.needRefine)
    && (!r.needRefine ==> r == Unrefined(page))
  }

  /** When every page has a validation (as after the validation stage), each
      page gets exactly one result, in order, for that page's text; it is
      refined only if validation asked for it, and a page validation did
      not flag is recorded unchanged at no cost. */
  lemma EveryValidatedPageRecorded(s: RefineState, llm: RefineLlm)
    requires forall p :: p in Flatten(s.extractionResults) ==> Validated(s.validationResults, p)
    ensures var r := Run(s, llm);
      var pages := Flatten(s.extractionResults);
      var n := |s.refineResults|;
      && |r.refineResults| == n + |pages|
      && forall i :: 0 <= i < |pages| ==> RecordsPage(r.refineResults[n + i], pages[i])
  {
    var pages := Flatten(s.extractionResults);
    var index := Index(s.validationResults);
    var n := |s.refineResults|;
    ValidatedPagesIndexed(s.validationResults, pages);
    var os := DispatchPages(pages, 0, index, llm);
    var rs := Present(os);
    DispatchedAll(os, pages, index, llm);
    var all := Run(s, llm).refineResults;
    assert all == s.refineResults + rs;
    AppendedRecords(s.refineResults, rs, pages);
  }

  /** Results recording the pages keep doing so after earlier results. */
  lemma AppendedRecords(earlier: seq<RefineResult>, rs: seq<RefineResult>, pages: seq<PageRef>)
    requires |rs| == |pages| && forall i :: 0 <= i < |pages| ==> RecordsPage(rs[i], pages[i])
    ensures forall i :: 0 <= i < |pages| ==> RecordsPage((earlier + rs)[|earlier| + i], pages[i])
  {
    forall i | 0 <= i < |pages|
      ensures RecordsPage((earlier + rs)[|earlier| + i], pages[i])
    {
      assert (earlier + rs)[|earlier| + i] == rs[i];
    }
  }

  /** When every page is dispatched to a result, the results kept are one
      per page, in order, each recording its page. */
  lemma DispatchedAll(os: seq<Option<RefineResult>>, pages: seq<PageRef>, index: map<string, ValidationResult>, llm: RefineLlm)
    requires os == DispatchPages(pages, 0, index, llm)
    requires forall i :: 0 <= i < |pages| ==> ExtractionId(pages[i].strategy, pages[i].page.pageNum) in index
    ensures |Present(os)| == |pages|
    ensures forall i :: 0 <= i < |pages| ==> RecordsPage(Present(os)[i], pages[i])
  {
    assert forall i :: 0 <= i < |os| ==> os[i].Some?;
    var rs := Present(os);
    forall i | 0 <= i < |pages|
      ensures RecordsPage(rs[i], pages[i])
    {
      DispatchedRecord(i, pages[i], index, llm, rs[i]);
    }
  }

  /** What a dispatched page's result says about that page. */
  lemma DispatchedRecord(k: nat, page: PageRef, index: map<string, ValidationResult>, llm: RefineLlm, r: RefineResult)
    requires Some(r) == DispatchPage(k, page, index, llm)
    ensures RecordsPage(r, page)
  {
  }

  /** The number of results whose `refined` is `want`. */
  function CountRefined(rs: seq<RefineResult>, want: bool): (n: nat)
    ensures n <= |rs|
    decreases |rs|
  {
    if rs == [] then 0
    else CountRefined(rs[..|rs| - 1], want) + (if rs[|rs| - 1].refined == want then 1 else 0)
  }

  /** Every result is either refined or not. */
  lemma {:induction false} RefinedCountsSplit(rs: seq<RefineResult>)
    ensures CountRefined(rs, true) + CountRefined(rs, false) == |rs|
    decreases |rs|
  {
    if rs != [] {
      RefinedCountsSplit(rs[..|rs| - 1]);
    }
  }

  datatype RefineSummary = RefineSummary(totalPages: nat, refined: nat, skipped: int)

  /** The statistics `run` prints; "Skipped" is computed as the remainder. */
  function Summarize(rs: seq<RefineResult>): (r: RefineSummary)
    ensures r.totalPages == |rs|
    ensures r.refined + r.skipped == r.totalPages
    ensures r.skipped == CountRefined(rs, false)
  {
    RefinedCountsSplit(rs);
    var refined := CountRefined(rs, true);
    RefineSummary(|rs|, refined, |rs| - refined)
  }
}

=== FILE: refine_graph.dfy ===
/** The refine workflow graph: four nodes chained by unconditional edges from
    "extract" to END, and the state transformation one run of it performs. */
module RefineGraph {
  import opened Wrappers
  import opened RefineModel
  import RefineValidation
  import RefineAgent
  import RefineReport

  datatype Node = Extract | RefineValidate | Refine | ReportNode | End

  /** The name each node is registered under. */
  function NodeName(n: Node): string {
    match n
    case Extract => "extract"
    case RefineValidate => "refine_validate"
    case Refine => "refine"
    case ReportNode => "report"
    case End => "__end__"
  }

  /** `set_entry_point("extract")`. */
  const Entry := Extract

  /** The `add_edge` calls: every node but END has exactly one successor. */
  function Successor(n: Node): Node
    requires n != End
  {
    match n
    case Extract => RefineValidate
    case RefineValidate => Refine
    case Refine => ReportNode
    case ReportNode => End
  }

  /** The number of edges from a node to END. */
  function StepsToEnd(n: Node): nat {
    match n
    case Extract => 4
    case RefineValidate => 3
    case Refine => 2
    case ReportNode => 1
    case End => 0
  }

  /** Every edge moves one step closer to END, so a run cannot loop. */
  lemma EdgesApproachEnd(n: Node)
    requires n != End
    ensures StepsToEnd(Successor(n)) + 1 == StepsToEnd(n)
  {
  }

  /** The nodes a run visits from `n` on, END excluded. */
  function RouteFrom(n: Node): (r: seq<Node>)
    ensures |r| == StepsToEnd(n)
    ensures forall i :: 0 <= i < |r| ==> r[i] != End
    ensures r != [] ==> r[0] == n
    decreases StepsToEnd(n)
  {
    if n == End then [] else [n] + RouteFrom(Successor(n))
  }

  /** A run visits the four stages once each, in pipeline order, and then ends. */
  lemma RouteFromEntry()
    ensures RouteFrom(Entry) == [Extract, RefineValidate, Refine, ReportNode]
    ensures forall i, j :: 0 <= i < j < |RouteFrom(Entry)| ==> RouteFrom(Entry)[i] != RouteFrom(Entry)[j]
  {
    assert RouteFrom(ReportNode) == [ReportNode];
    assert RouteFrom(Refine) == [Refine, ReportNode];
    assert RouteFrom(RefineValidate) == [RefineValidate, Refine, ReportNode];
  }

  /** What one node does to the state. The extraction agent is not part of
      this model and is a parameter; the LLMs are oracles. */
  function RunNode(n: Node, s: RefineState, extract: RefineState -> RefineState,
                   vllm: RefineValidation.ValidationLlm, rllm: RefineAgent.RefineLlm): RefineState
  {
    match n
    case Extract => extract(s)
    case RefineValidate => RefineValidation.Run(s, vllm)
    case Refine => RefineAgent.Run(s, rllm)
    case ReportNode => RefineReport.Run(s)
    case End => s
  }

  /** Running the nodes of a route one after the other. */
  function RunRoute(route: seq<Node>, s: RefineState, extract: RefineState -> RefineState,
                    vllm: RefineValidation.ValidationLlm, rllm: RefineAgent.RefineLlm): RefineState
    decreases |route|
  {
    if route == [] then s else RunRoute(route[1..], RunNode(route[0], s, extract, vllm, rllm), extract, vllm, rllm)
  }

  /** Running the route from the entry point is the four stages composed in order. */
  lemma EntryRouteComposesStages(s: RefineState, extract: RefineState -> RefineState,
                                 vllm: RefineValidation.ValidationLlm, rllm: RefineAgent.RefineLlm)
    ensures RunRoute(RouteFrom(Entry), s, extract, vllm, rllm)
         == RefineReport.Run(RefineAgent.Run(RefineValidation.Run(extract(s), vllm), rllm))
  {
    RouteFromEntry();
    var route := [Extract, RefineValidate, Refine, ReportNode];
    assert route[1..] == [RefineValidate, Refine, ReportNode];
    assert route[1..][1..] == [Refine, ReportNode];
    assert route[1..][1..][1..] == [ReportNode];
    assert route[1..][1..][1..][1..] == [];
  }

  /** `graph.invoke(state)` for the compiled refine graph: the state passes
      through extraction, validation, refining and the report, and ends
      "complete" with a report. */
  function Invoke(s: RefineState, extract: RefineState -> RefineState,
                  vllm: RefineValidation.ValidationLlm, rllm: RefineAgent.RefineLlm): (r: RefineState)
    ensures r == RefineReport.Run(RefineAgent.Run(RefineValidation.Run(extract(s), vllm), rllm))
    ensures r.currentStage == StageComplete && r.report.Some?
  {
    EntryRouteComposesStages(s, extract, vllm, rllm);
    RunRoute(RouteFrom(Entry), s, extract, vllm, rllm)
  }

  /** The verdicts of the page loop include one for every page it visits,
      carrying that page's strategy and page number. */
  lemma ChecksCoverPages(pages: seq<PageRef>, vllm: RefineValidation.ValidationLlm)
    ensures forall p :: p in pages ==> RefineAgent.Validated(RefineValidation.CheckPages(pages, 0, vllm), p)
  {
    var vs := RefineValidation.CheckPages(pages, 0, vllm);
    forall p | p in pages
      ensures RefineAgent.Validated(vs, p)
    {
      var i :| 0 <= i < |pages| && pages[i] == p;
      var w := RefineValidation.CheckPage(i, p, vllm);
      assert vs[i] == w;
      assert w.strategy == p.strategy && w.pageNum == p.page.pageNum;
    }
  }

  /** A page validated by some results stays validated when results are put before them. */
  lemma ValidatedAfterEarlier(earlier: seq<ValidationResult>, vs: seq<ValidationResult>, p: PageRef)
    requires RefineAgent.Validated(vs, p)
    ensures RefineAgent.Validated(earlier + vs, p)
  {
    var j :| 0 <= j < |vs| && vs[j].strategy == p.strategy && vs[j].pageNum == p.page.pageNum;
    assert (earlier + vs)[|earlier| + j] == vs[j];
  }

  /** After the validation stage every extracted page has a validation for
      its strategy and page number. */
  lemma ValidationCoversEveryPage(s: RefineState, vllm: RefineValidation.ValidationLlm)
    ensures var v := RefineValidation.Run(s, vllm);
      forall p :: p in Flatten(v.extractionResults) ==> RefineAgent.Validated(v.validationResults, p)
  {
    var pages := Flatten(s.extractionResults);
    var vs := RefineValidation.CheckPages(pages, 0, vllm);
    var v := RefineValidation.Run(s, vllm);
    assert v.extractionResults == s.extractionResults;
    assert v.validationResults == s.validationResults + vs;
    ChecksCoverPages(pages, vllm);
    forall p | p in pages
      ensures RefineAgent.Validated(v.validationResults, p)
    {
      ValidatedAfterEarlier(s.validationResults, vs, p);
    }
  }

  /** Starting from an extraction that leaves no earlier results behind,
      the final report counts one refine result per extracted page, each
      either refined or skipped. */
  lemma ReportCountsEveryPage(s: RefineState, extract: RefineState -> RefineState,
                              vllm: RefineValidation.ValidationLlm, rllm: RefineAgent.RefineLlm)
    requires extract(s).validationResults == [] && extract(s).refineResults == []
    ensures var r := Invoke(s, extract, vllm, rllm);
      && r.report.value.totalPages == TotalPages(extract(s).extractionResults)
      && r.report.value.pagesRefined + r.report.value.pagesSkipped == r.report.value.totalPages
  {
    var e := extract(s);
    var v := RefineValidation.Run(e, vllm);
    ValidationCoversEveryPage(e, vllm);
    RefineAgent.EveryValidatedPageRecorded(v, rllm);
  }
}

=== FILE: refine_model.dfy ===
/** The data the refine pipeline threads through its four stages: extracted
    pages, per-page validation and refine results, the final report, and the
    state record that carries them. The LLM is an oracle whose answers are
    supplied by the caller. */
module RefineModel {
  import opened Wrappers
  import opened Text

  /** A wall-clock duration in milliseconds, as measured around an LLM call. */
  type Millis = r: real | 0.0 <= r

  /** A price in US dollars. */
  type Usd = r: real | 0.0 <= r

  /** Issue flags as the LLM reported them; a flag counts when it is present and true. */
  type Issues = map<string, bool>

  predicate Flag(issues: Issues, name: string) {
    name in issues && issues[name]
  }

  const LineBreakErrors := "line_break_errors"
  const HeaderFooterNoise := "header_footer_noise"
  const MixedContent := "mixed_content"
  const EncodingErrors := "encoding_errors"
  const ParagraphStructure := "paragraph_structure"

  /** The issues the refine prompt and the CSV log know, in the order they list them. */
  const IssueNames: seq<string> :=
    [LineBreakErrors, HeaderFooterNoise, MixedContent, EncodingErrors, ParagraphStructure]

  datatype PageResult = PageResult(pageNum: int, text: string)

  /** One strategy's extracted pages. */
  datatype ExtractionResult = ExtractionResult(strategy: string, pageResults: seq<PageResult>)

  /** `PageRefineValidationResult`; `error` is the `metadata["error"]` a failed LLM call leaves. */
  datatype ValidationResult = ValidationResult(
    pageNum: int,
    extractionId: string,
    strategy: string,
    needRefine: bool,
    issues: Issues,
    confidence: real,
    reason: string,
    processingTimeMs: Millis,
    llmCostUsd: Usd,
    error: Option<string>)

  /** `PageRefineResult`; `refinedText` is `None` when nothing was refined. */
  datatype RefineResult = RefineResult(
    pageNum: int,
    extractionId: string,
    strategy: string,
    originalText: string,
    refinedText: Option<string>,
    needRefine: bool,
    refined: bool,
    refineActions: seq<string>,
    characterDiff: int,
    improvements: map<string, int>,
    processingTimeMs: Millis,
    llmCostUsd: Usd,
    error: Option<string>)

  /** `RefineReport` without its file paths and timestamp. */
  datatype Report = Report(
    documentName: string,
    strategy: string,
    totalPages: nat,
    pagesNeedRefine: nat,
    pagesRefined: nat,
    pagesSkipped: int,
    validationResults: seq<ValidationResult>,
    refineResults: seq<RefineResult>,
    totalProcessingTimeMs: real,
    totalLlmCostUsd: real)

  /** `RefineDocumentState`. */
  datatype RefineState = RefineState(
    documentName: string,
    documentPath: string,
    extractionResults: seq<ExtractionResult>,
    validationResults: seq<ValidationResult>,
    refineResults: seq<RefineResult>,
    report: Option<Report>,
    currentStage: string,
    errorLog: seq<string>)

  const StageValidated := "refine_validation_complete"
  const StageRefined := "refine_complete"
  const StageComplete := "complete"

  /** `add_refine_validation_result`, taken to append. */
  function AddValidationResult(s: RefineState, v: ValidationResult): RefineState {
    s.(validationResults := s.validationResults + [v])
  }

  /** `add_refine_result`, taken to append. */
  function AddRefineResult(s: RefineState, r: RefineResult): RefineState {
    s.(refineResults := s.refineResults + [r])
  }

  /** `f"{strategy}_{page_num}"`: the id of a page of one strategy's
      extraction, and the key the refine stage looks validations up by. The
      strategy comes first, and the '_' after it is the id's last one. */
  function ExtractionId(strategy: string, pageNum: int): (r: string)
    ensures |strategy| < |r| && r[..|strategy|] == strategy && r[|strategy|] == '_'
    ensures forall i :: |strategy| < i < |r| ==> r[i] != '_'
  {
    strategy + "_" + IntToString(pageNum)
  }

  /** The string key is as good as the pair: the page number's digits never
      contain '_', so the last '_' separates the two parts. */
  lemma ExtractionIdInjective(s1: string, p1: int, s2: string, p2: int)
    requires ExtractionId(s1, p1) == ExtractionId(s2, p2)
    ensures s1 == s2 && p1 == p2
  {
    var id := ExtractionId(s1, p1);
    var n1, n2 := IntToString(p1), IntToString(p2);
    // the '_' just before each number's digits sits where the other number
    // has no '_', so both numbers have the same length
    assert id == s2 + "_" + n2;
    assert forall i :: |id| - |n1| <= i < |id| ==> id[i] != '_';
    assert forall i :: |id| - |n2| <= i < |id| ==> id[i] != '_';
    assert id[|id| - |n1| - 1] == '_';
    assert id[|id| - |n2| - 1] == '_';
    assert n1 == id[|id| - |n1|..] == n2;
    assert s1 == id[..|s1|] == s2;
    IntToStringInjective(p1, p2);
  }

  /** One page of one strategy's extraction, as the stages visit it. */
  datatype PageRef = PageRef(strategy: string, page: PageResult)

  function PagesOf(er: ExtractionResult): (r: seq<PageRef>)
    ensures |r| == |er.pageResults|
    ensures forall j :: 0 <= j < |r| ==> r[j] == PageRef(er.strategy, er.pageResults[j])
  {
    seq(|er.pageResults|, j requires 0 <= j < |er.pageResults| => PageRef(er.strategy, er.pageResults[j]))
  }

  function TotalPages(ers: seq<ExtractionResult>): nat
    decreases |ers|
  {
    if ers == [] then 0 else |ers[0].pageResults| + TotalPages(ers[1..])
  }

  /** The nested `for extraction_result ... for page_result ...` order. */
  function Flatten(ers: seq<ExtractionResult>): (r: seq<PageRef>)
    ensures |r| == TotalPages(ers)
    decreases |ers|
  {
    if ers == [] then [] else PagesOf(ers[0]) + Flatten(ers[1..])
  }

  /** Strategy-then-page order: page `j` of strategy `k` sits right after all
      pages of the strategies before `k`. */
  lemma {:induction false} FlattenOrder(ers: seq<ExtractionResult>, k: nat, j: nat)
    requires k < |ers| && j < |ers[k].pageResults|
    ensures TotalPages(ers[..k]) + j < |Flatten(ers)|
    ensures Flatten(ers)[TotalPages(ers[..k]) + j] == PageRef(ers[k].strategy, ers[k].pageResults[j])
    decreases k
  {
    if k == 0 {
      assert ers[..0] == [];
    } else {
      FlattenOrder(ers[1..], k - 1, j);
      assert ers[1..][..k - 1] == ers[..k][1..];
      assert TotalPages(ers[..k]) == |ers[0].pageResults| + TotalPages(ers[1..][..k - 1]);
    }
  }

  /** What an LLM call gave back: the parsed reply and its cost, or the
      message of whatever was raised (transport, JSON parsing, costing). */
  datatype LlmOutcome<T> = Answered(body: T, costUsd: Usd) | Raised(message: string)

  /** An LLM call and the time it took. */
  datatype LlmCall<T> = LlmCall(elapsedMs: Millis, outcome: LlmOutcome<T>)
}

=== FILE: refine_prompts.dfy ===
/** The user prompts the refine stages send to the LLM. The system prompts are
    fixed text that this model does not reproduce. */
module RefinePrompts {
  import opened Text
  import opened RefineModel

  /** The validation prompt shows only this many leading characters of the page. */
  const ValidationTextLimit: nat := 2000

  /** The quality prompt shows this many leading characters of each text. */
  const QualityTextLimit: nat := 1000

  /** Every prompt opens with this, then the page number. */
  const PageLead := "다음은 PDF 문서의 "

  /** The opening every prompt shares: the lead, the page number, then `rest`. */
  function Headed(pageNum: int, rest: string): string {
    PageLead + IntToString(pageNum) + rest
  }

  /** A prompt's opening gives back its page number and the rest, as long as
      the rest does not start like a number. */
  lemma HeadedSplits(n1: int, x1: string, n2: int, x2: string)
    requires x1 != [] && x2 != []
    requires !IsDigit(x1[0]) && x1[0] != '-' && !IsDigit(x2[0]) && x2[0] != '-'
    requires Headed(n1, x1) == Headed(n2, x2)
    ensures n1 == n2 && x1 == x2
  {
    assert PageLead + (IntToString(n1) + x1) == Headed(n1, x1);
    assert PageLead + (IntToString(n2) + x2) == Headed(n2, x2);
    CancelAround(PageLead, IntToString(n1) + x1, IntToString(n2) + x2, "");
    IntToStringThenText(n1, x1, n2, x2);
  }

  const ValidationMid := "페이지에서 추출된 텍스트입니다.\n"
    + "이 텍스트가 정제가 필요한지 판단해주세요.\n\n"
    + "**추출된 텍스트:**\n```\n"

  /** Text after the page excerpt; it includes the words of a Python comment
      that sit inside the template and so reach the LLM. */
  const ValidationTail := "  # 처음 2000자만 평가\n```\n\n"
    + "위 텍스트를 분석하여 정제 필요 여부를 JSON 형식으로 응답해주세요.\n"

  /** `create_refine_validation_prompt`: it opens with the page number, and
      its size does not depend on how long the page is beyond 2000 characters. */
  function RefineValidationPrompt(pageText: string, pageNum: int): (r: string)
    ensures PageLead + IntToString(pageNum) <= r
    ensures |r| <= |PageLead| + |IntToString(pageNum)| + |ValidationMid| + ValidationTextLimit + |ValidationTail|
  {
    Headed(pageNum, ValidationMid + Prefix(pageText, ValidationTextLimit) + ValidationTail)
  }

  /** Two validation prompts are equal exactly when they are for the same
      page number and the pages agree on their first 2000 characters: the
      rest of a page never reaches the LLM. */
  lemma RefineValidationPromptDetermines(t1: string, n1: int, t2: string, n2: int)
    ensures RefineValidationPrompt(t1, n1) == RefineValidationPrompt(t2, n2)
        <==> n1 == n2 && Prefix(t1, ValidationTextLimit) == Prefix(t2, ValidationTextLimit)
  {
    var p1, p2 := Prefix(t1, ValidationTextLimit), Prefix(t2, ValidationTextLimit);
    if RefineValidationPrompt(t1, n1) == RefineValidationPrompt(t2, n2) {
      var x1, x2 := ValidationMid + p1 + ValidationTail, ValidationMid + p2 + ValidationTail;
      assert ValidationMid[0] == '페';
      assert x1[0] == ValidationMid[0] == x2[0];
      HeadedSplits(n1, x1, n2, x2);
      CancelAround(ValidationMid, p1, p2, ValidationTail);
    }
  }

  const LineBreakLine := "- 줄바꿈/띄어쓰기 오류"
  const HeaderFooterLine := "- 헤더/푸터/페이지번호 노이즈"
  const MixedContentLine := "- 표·목차/본문 뒤섞임"
  const EncodingLine := "- 특수문자/인코딩 오류"
  const ParagraphLine := "- 문단 구조 불일치"

  /** What the refine prompt says when no known issue is flagged. */
  const GenericIssueLine := "- 전반적인 품질 개선 필요"

  /** The issues the refine prompt knows, in the order it lists them, each
      with the line it writes for it. */
  const IssueCatalog: seq<(string, string)> := [
    (LineBreakErrors, LineBreakLine),
    (HeaderFooterNoise, HeaderFooterLine),
    (MixedContent, MixedContentLine),
    (EncodingErrors, EncodingLine),
    (ParagraphStructure, ParagraphLine)
  ]

  predicate AnyIssueFlagged(issues: Issues) {
    exists k :: 0 <= k < |IssueCatalog| && Flag(issues, IssueCatalog[k].0)
  }

  /** The line for one issue when it is flagged, nothing otherwise. */
  function Listed(issues: Issues, entry: (string, string)): seq<string> {
    if Flag(issues, entry.0) then [entry.1] else []
  }

  /** The number of flagged issues in a catalog. */
  function FlaggedCount(catalog: seq<(string, string)>, issues: Issues): (n: nat)
    ensures n <= |catalog|
    decreases |catalog|
  {
    if catalog == [] then 0 else (if Flag(issues, catalog[0].0) then 1 else 0) + FlaggedCount(catalog[1..], issues)
  }

  /** The catalog lines of the flagged issues, in catalog order. */
  function CatalogLines(catalog: seq<(string, string)>, issues: Issues): (r: seq<string>)
    ensures |r| == FlaggedCount(catalog, issues)
    ensures forall j :: 0 <= j < |r| ==>
      exists k :: 0 <= k < |catalog| && catalog[k].1 == r[j] && Flag(issues, catalog[k].0)
    ensures r == [] <==> forall k :: 0 <= k < |catalog| ==> !Flag(issues, catalog[k].0)
    decreases |catalog|
  {
    if catalog == [] then []
    else
      var rest := CatalogLines(catalog[1..], issues);
      assert forall k :: 1 <= k < |catalog| ==> catalog[k] == catalog[1..][k - 1];
      Listed(issues, catalog[0]) + rest
  }

  /** A flagged issue's line is listed right after the lines of the flagged
      issues before it in the catalog. */
  lemma {:induction false} CatalogLineAt(catalog: seq<(string, string)>, issues: Issues, k: nat)
    requires k < |catalog| && Flag(issues, catalog[k].0)
    ensures FlaggedCount(catalog[..k], issues) < |CatalogLines(catalog, issues)|
    ensures CatalogLines(catalog, issues)[FlaggedCount(catalog[..k], issues)] == catalog[k].1
    decreases k
  {
    var tail := catalog[1..];
    var head := Listed(issues, catalog[0]);
    var r := CatalogLines(catalog, issues);
    assert r == head + CatalogLines(tail, issues);
    if k == 0 {
      assert catalog[..0] == [];
    } else {
      assert tail[k - 1] == catalog[k];
      CatalogLineAt(tail, issues, k - 1);
      FlaggedCountStep(catalog, issues, k);
      var j := FlaggedCount(tail[..k - 1], issues);
      assert r[|head| + j] == CatalogLines(tail, issues)[j];
    }
  }

  /** Counting the flagged issues among the first `k` entries counts the
      first entry, then the next `k - 1`. */
  lemma FlaggedCountStep(catalog: seq<(string, string)>, issues: Issues, k: nat)
    requires 0 < k <= |catalog|
    ensures FlaggedCount(catalog[..k], issues)
      == |Listed(issues, catalog[0])| + FlaggedCount(catalog[1..][..k - 1], issues)
  {
    assert catalog[..k][1..] == catalog[1..][..k - 1] && catalog[..k][0] == catalog[0];
  }

  /** Every flagged issue's line is listed, right after the lines of the
      flagged issues before it in the catalog: with the length above, the
      list is exactly the flagged lines in catalog order. */
  lemma CatalogLinesInOrder(catalog: seq<(string, string)>, issues: Issues)
    ensures forall k :: 0 <= k < |catalog| && Flag(issues, catalog[k].0) ==>
      FlaggedCount(catalog[..k], issues) < |CatalogLines(catalog, issues)|
      && CatalogLines(catalog, issues)[FlaggedCount(catalog[..k], issues)] == catalog[k].1
  {
    forall k | 0 <= k < |catalog| && Flag(issues, catalog[k].0)
      ensures FlaggedCount(catalog[..k], issues) < |CatalogLines(catalog, issues)|
      ensures CatalogLines(catalog, issues)[FlaggedCount(catalog[..k], issues)] == catalog[k].1
    {
      CatalogLineAt(catalog, issues, k);
    }
  }

  /** `issue_list` as `create_refine_prompt` builds it, one `if` per issue. */
  function IssueLines(issues: Issues): seq<string> {
    Listed(issues, (LineBreakErrors, LineBreakLine))
    + Listed(issues, (HeaderFooterNoise, HeaderFooterLine))
    + Listed(issues, (MixedContent, MixedContentLine))
    + Listed(issues, (EncodingErrors, EncodingLine))
    + Listed(issues, (ParagraphStructure, ParagraphLine))
  }

  /** The five `if`s list exactly the flagged issues of the catalog, in its order. */
  lemma IssueLinesFollowCatalog(issues: Issues)
    ensures IssueLines(issues) == CatalogLines(IssueCatalog, issues)
  {
    var c := IssueCatalog;
    var l0, l1, l2, l3, l4 := Listed(issues, c[0]), Listed(issues, c[1]), Listed(issues, c[2]),
      Listed(issues, c[3]), Listed(issues, c[4]);
    assert CatalogLines(c[4..], issues) == l4 by {
      assert c[4..][1..] == [];
    }
    assert CatalogLines(c[3..], issues) == l3 + l4 by {
      assert c[3..][1..] == c[4..];
    }
    assert CatalogLines(c[2..], issues) == l2 + (l3 + l4) by {
      assert c[2..][1..] == c[3..];
    }
    assert CatalogLines(c[1..], issues) == l1 + (l2 + (l3 + l4)) by {
      assert c[1..][1..] == c[2..];
    }
    assert CatalogLines(c, issues) == l0 + (l1 + (l2 + (l3 + l4)));
    assert IssueLines(issues) == l0 + l1 + l2 + l3 + l4;
    AppendAssoc(l0, l1, l2);
    AppendAssoc(l0, l1 + l2, l3);
    AppendAssoc(l1, l2, l3);
    AppendAssoc(l0, l1 + (l2 + l3), l4);
    AppendAssoc(l1, l2 + l3, l4);
    AppendAssoc(l2, l3, l4);
  }

  /** No catalog line reads like the generic line: they differ in their third character. */
  lemma CatalogLinesAreNotGeneric()
    ensures forall k :: 0 <= k < |IssueCatalog| ==>
      |IssueCatalog[k].1| > 2 && IssueCatalog[k].1[2] != GenericIssueLine[2]
  {
    assert GenericIssueLine[2] == '전';
    assert LineBreakLine[2] == '줄';
    assert HeaderFooterLine[2] == '헤';
    assert MixedContentLine[2] == '표';
    assert EncodingLine[2] == '특';
    assert ParagraphLine[2] == '문';
  }

  /** The issue list is empty exactly when no known issue is flagged. */
  lemma IssueLinesEmptyIff(issues: Issues)
    ensures IssueLines(issues) == [] <==> !AnyIssueFlagged(issues)
  {
    IssueLinesFollowCatalog(issues);
  }

  /** A non-empty issue list never joins into the generic line: it starts
      with a catalog line, whose third character differs. */
  lemma JoinedIssuesAreNotGeneric(issues: Issues)
    requires IssueLines(issues) != []
    ensures Join(IssueLines(issues), "\n") != GenericIssueLine
  {
    var lines := IssueLines(issues);
    IssueLinesFollowCatalog(issues);
    JoinStartsWithFirst(lines, "\n");
    CatalogLinesAreNotGeneric();
    var k :| 0 <= k < |IssueCatalog| && IssueCatalog[k].1 == lines[0] && Flag(issues, IssueCatalog[k].0);
    assert Join(lines, "\n")[2] == lines[0][2];
  }

  /** `issues_text`: the flagged issues one per line, or the generic line
      when none is flagged. */
  function IssuesText(issues: Issues): (r: string)
    ensures r == GenericIssueLine <==> !AnyIssueFlagged(issues)
    ensures AnyIssueFlagged(issues) ==> r == Join(CatalogLines(IssueCatalog, issues), "\n")
  {
    IssueLinesEmptyIff(issues);
    IssueLinesFollowCatalog(issues);
    var lines := IssueLines(issues);
    if lines == [] then GenericIssueLine
    else
      JoinedIssuesAreNotGeneric(issues);
      Join(lines, "\n")
  }

  const RefineMid := "페이지에서 추출된 텍스트입니다.\n"
    + "이 텍스트를 정제해주세요.\n\n"
    + "**발견된 문제:**\n"
  const RefineTextLead := "\n\n**원본 텍스트:**\n```\n"
  const RefineTail := "\n```\n\n"
    + "위 텍스트를 정제하여 JSON 형식으로 응답해주세요.\n"
    + "원본의 의미와 내용은 절대 변경하지 말고, 읽기 쉽고 자연스러운 형태로만 수정해주세요.\n"

  /** `create_refine_prompt`: the prompt around the issue text of the
      flagged issues (see RefinePromptWithCarriesPage). */
  function RefinePrompt(pageText: string, pageNum: int, issues: Issues): string {
    RefinePromptWith(pageText, pageNum, IssuesText(issues))
  }

  /** The refine prompt around a given issue text. */
  function RefinePromptWith(pageText: string, pageNum: int, issuesText: string): string {
    Headed(pageNum, RefineMid + issuesText + RefineTextLead + pageText + RefineTail)
  }

  /** The middle `x` of a prompt's rest sits just before its tail. */
  lemma HeadedCarries(pageNum: int, lead: string, x: string, tail: string)
    ensures var r := Headed(pageNum, lead + x + tail);
      && |x| + |tail| <= |r|
      && r[|r| - |tail| - |x|..|r| - |tail|] == x
  {
    assert Headed(pageNum, lead + x + tail) == (PageLead + IntToString(pageNum) + lead) + x + tail;
    MiddleOf(PageLead + IntToString(pageNum) + lead, x, tail);
  }

  /** Whatever the issue text, the refine prompt opens with the page number
      and carries the whole page, untruncated, just before the closing
      instructions. */
  lemma RefinePromptWithCarriesPage(pageText: string, pageNum: int, issuesText: string)
    ensures var r := RefinePromptWith(pageText, pageNum, issuesText);
      && PageLead + IntToString(pageNum) <= r
      && |pageText| + |RefineTail| <= |r|
      && r[|r| - |RefineTail| - |pageText|..|r| - |RefineTail|] == pageText
  {
    HeadedCarries(pageNum, RefineMid + issuesText + RefineTextLead, pageText, RefineTail);
  }

  /** With the same issues listed, two refine prompts are equal exactly when
      they are for the same page number and the same text: unlike the
      validation prompt, the whole page is sent. */
  lemma RefinePromptDetermines(t1: string, n1: int, i1: Issues, t2: string, n2: int, i2: Issues)
    requires IssuesText(i1) == IssuesText(i2)
    ensures RefinePrompt(t1, n1, i1) == RefinePrompt(t2, n2, i2) <==> n1 == n2 && t1 == t2
  {
    if RefinePrompt(t1, n1, i1) == RefinePrompt(t2, n2, i2) {
      var lead := RefineMid + IssuesText(i1) + RefineTextLead;
      var x1, x2 := lead + t1 + RefineTail, lead + t2 + RefineTail;
      assert RefineMid[0] == '페';
      assert x1[0] == RefineMid[0] == x2[0];
      HeadedSplits(n1, x1, n2, x2);
      CancelAround(lead, t1, t2, RefineTail);
    }
  }

  const QualityMid := "페이지 원본 텍스트와 정제된 텍스트입니다.\n"
    + "정제 품질을 평가해주세요.\n\n"
    + "**원본 텍스트:**\n```\n"
  const QualityRefinedLead := "\n```\n\n**정제된 텍스트:**\n```\n"
  const QualityTail := "\n```\n\n정제 품질을 JSON 형식으로 평가해주세요.\n"

  /** `create_refine_quality_prompt`: it opens with the page number, and at
      most 1000 characters of each text reach it. */
  function RefineQualityPrompt(originalText: string, refinedText: string, pageNum: int): (r: string)
    ensures PageLead + IntToString(pageNum) <= r
    ensures |r| <= |PageLead| + |IntToString(pageNum)| + |QualityMid| + |QualityRefinedLead| + |QualityTail| + 2 * QualityTextLimit
  {
    Headed(pageNum, QualityMid + Prefix(originalText, QualityTextLimit)
      + QualityRefinedLead + Prefix(refinedText, QualityTextLimit) + QualityTail)
  }

  /** For originals that agree on their first 1000 characters, two quality
      prompts are equal exactly when they are for the same page number and
      the refined texts agree on their first 1000 characters. */
  lemma RefineQualityPromptDetermines(o1: string, r1: string, n1: int, o2: string, r2: string, n2: int)
    requires Prefix(o1, QualityTextLimit) == Prefix(o2, QualityTextLimit)
    ensures RefineQualityPrompt(o1, r1, n1) == RefineQualityPrompt(o2, r2, n2)
        <==> n1 == n2 && Prefix(r1, QualityTextLimit) == Prefix(r2, QualityTextLimit)
  {
    if RefineQualityPrompt(o1, r1, n1) == RefineQualityPrompt(o2, r2, n2) {
      var lead := QualityMid + Prefix(o1, QualityTextLimit) + QualityRefinedLead;
      var p1, p2 := Prefix(r1, QualityTextLimit), Prefix(r2, QualityTextLimit);
      var x1, x2 := lead + p1 + QualityTail, lead + p2 + QualityTail;
      assert QualityMid[0] == '페';
      assert x1[0] == QualityMid[0] == x2[0];
      HeadedSplits(n1, x1, n2, x2);
      CancelAround(lead, p1, p2, QualityTail);
    }
  }
}

=== FILE: refine_report.dfy ===
/** Stage 4 of the refine pipeline: the report's statistics, the JSON
    report's per-page entries, the CSV log's rows and the file names both
    are saved under. */
module RefineReport {
  import opened Wrappers
  import opened Text
  import opened RefineModel
  import RefineValidation
  import RefineAgent

  /** The report's strategy when there is no extraction result. */
  const UnknownStrategy := "unknown"

  /** `sum(...)` over exact reals. */
  function Sum(xs: seq<real>): real
    decreases |xs|
  {
    if xs == [] then 0.0 else Sum(xs[..|xs| - 1]) + xs[|xs| - 1]
  }

  /** A sum of non-negative amounts is non-negative and at least each amount. */
  lemma {:induction false} SumBoundsEach(xs: seq<real>)
    requires forall i :: 0 <= i < |xs| ==> xs[i] >= 0.0
    ensures Sum(xs) >= 0.0
    ensures forall i :: 0 <= i < |xs| ==> xs[i] <= Sum(xs)
    decreases |xs|
  {
    if xs != [] {
      var init := xs[..|xs| - 1];
      SumBoundsEach(init);
      assert forall i :: 0 <= i < |init| ==> xs[i] == init[i];
    }
  }

  /** Summing one more amount adds it to the sum. */
  lemma SumAppend(xs: seq<real>, x: real)
    ensures Sum(xs + [x]) == Sum(xs) + x
  {
    assert (xs + [x])[..|xs|] == xs;
  }

  /** Summing two lists one after the other is summing them joined. */
  lemma {:induction false} SumConcat(xs: seq<real>, ys: seq<real>)
    ensures Sum(xs + ys) == Sum(xs) + Sum(ys)
    decreases |ys|
  {
    if ys == [] {
      assert xs + ys == xs;
    } else {
      var init, last := ys[..|ys| - 1], ys[|ys| - 1];
      SumConcat(xs, init);
      assert xs + ys == (xs + init) + [last];
      SumAppend(xs + init, last);
    }
  }

  /** One amount per item, in order: the generator each `sum(...)` runs over. */
  function Amounts<T>(xs: seq<T>, amount: T -> real): (r: seq<real>)
    ensures |r| == |xs| && forall i :: 0 <= i < |xs| ==> r[i] == amount(xs[i])
  {
    seq(|xs|, i requires 0 <= i < |xs| => amount(xs[i]))
  }

  function ValidationTime(v: ValidationResult): real { v.processingTimeMs }
  function ValidationCost(v: ValidationResult): real { v.llmCostUsd }
  function RefineTime(r: RefineResult): real { r.processingTimeMs }
  function RefineCost(r: RefineResult): real { r.llmCostUsd }

  /** The `RefineReport` that `run` builds: page counts from the refine
      results, the "need refine" count from the validations, and time and
      cost totalled over both stages. */
  function BuildReport(s: RefineState): (r: Report)
    ensures r.documentName == s.documentName
    ensures s.extractionResults == [] ==> r.strategy == UnknownStrategy
    ensures s.extractionResults != [] ==> r.strategy == s.extractionResults[0].strategy
    ensures r.totalPages == |s.refineResults|
    ensures r.pagesNeedRefine == RefineValidation.CountNeed(s.validationResults, true)
    ensures r.pagesRefined == RefineAgent.CountRefined(s.refineResults, true)
    ensures r.pagesSkipped == RefineAgent.CountRefined(s.refineResults, false)
    ensures r.pagesRefined + r.pagesSkipped == r.totalPages
    ensures r.validationResults == s.validationResults && r.refineResults == s.refineResults
    ensures r.totalProcessingTimeMs
         == Sum(Amounts(s.validationResults, ValidationTime)) + Sum(Amounts(s.refineResults, RefineTime))
    ensures r.totalLlmCostUsd
         == Sum(Amounts(s.validationResults, ValidationCost)) + Sum(Amounts(s.refineResults, RefineCost))
    ensures r.totalProcessingTimeMs >= 0.0 && r.totalLlmCostUsd >= 0.0
    ensures forall i :: 0 <= i < |s.validationResults| ==>
      s.validationResults[i].processingTimeMs <= r.totalProcessingTimeMs
      && s.validationResults[i].llmCostUsd <= r.totalLlmCostUsd
    ensures forall i :: 0 <= i < |s.refineResults| ==>
      s.refineResults[i].processingTimeMs <= r.totalProcessingTimeMs
      && s.refineResults[i].llmCostUsd <= r.totalLlmCostUsd
  {
    var vs, rs := s.validationResults, s.refineResults;
    SumBoundsEach(Amounts(vs, ValidationTime));
    SumBoundsEach(Amounts(vs, ValidationCost));
    SumBoundsEach(Amounts(rs, RefineTime));
    SumBoundsEach(Amounts(rs, RefineCost));
    var summary := RefineAgent.Summarize(rs);
    Report(
      s.documentName,
      if s.extractionResults == [] then UnknownStrategy else s.extractionResults[0].strategy,
      summary.totalPages,
      RefineValidation.CountNeed(vs, true),
      summary.refined,
      summary.skipped,
      vs, rs,
      Sum(Amounts(vs, ValidationTime)) + Sum(Amounts(rs, RefineTime)),
      Sum(Amounts(vs, ValidationCost)) + Sum(Amounts(rs, RefineCost)))
  }

  /** The report's totals are the sums over every validation and every
      refine result of the run, taken as one list. */
  lemma ReportTotalsCoverBothStages(s: RefineState)
    ensures BuildReport(s).totalProcessingTimeMs
         == Sum(Amounts(s.validationResults, ValidationTime) + Amounts(s.refineResults, RefineTime))
    ensures BuildReport(s).totalLlmCostUsd
         == Sum(Amounts(s.validationResults, ValidationCost) + Amounts(s.refineResults, RefineCost))
  {
    SumConcat(Amounts(s.validationResults, ValidationTime), Amounts(s.refineResults, RefineTime));
    SumConcat(Amounts(s.validationResults, ValidationCost), Amounts(s.refineResults, RefineCost));
  }

  /** `RefineReportAgent.run`: the report is stored and the stage becomes
      "complete"; the results themselves are left as they are. */
  function Run(s: RefineState): (r: RefineState)
    ensures r.currentStage == StageComplete
    ensures r.report == Some(BuildReport(s))
    ensures r.validationResults == s.validationResults && r.refineResults == s.refineResults
    ensures r.extractionResults == s.extractionResults && r.errorLog == s.errorLog
  {
    s.(report := Some(BuildReport(s)), currentStage := StageComplete)
  }

  /** The JSON report's `refine_rate`, before formatting: the percentage of
      pages refined, or 0 when there are no pages. */
  function RefineRate(totalPages: nat, pagesRefined: nat): (r: real)
    ensures totalPages == 0 ==> r == 0.0
    ensures totalPages > 0 ==> r * (totalPages as real) == (pagesRefined as real) * 100.0
    ensures pagesRefined <= totalPages ==> 0.0 <= r <= 100.0
  {
    if totalPages > 0 then (pagesRefined as real) / (totalPages as real) * 100.0 else 0.0
  }

  /** A built report's refine rate is a percentage. */
  lemma ReportRateIsPercentage(s: RefineState)
    ensures var rep := BuildReport(s);
      0.0 <= RefineRate(rep.totalPages, rep.pagesRefined) <= 100.0
  {
    var rep := BuildReport(s);
    assert rep.pagesRefined <= rep.totalPages;
  }

  /** `document_name.replace('.pdf', '').replace(' ', '_')`: never longer
      than the name; position by position it is the name with ".pdf"
      removed, except that every space has become '_'. */
  function SafeName(documentName: string): (r: string)
    ensures |r| <= |documentName|
    ensures forall i :: 0 <= i < |r| ==> r[i] != ' '
    ensures var stem := ReplaceAll(documentName, ".pdf", "");
      |r| == |stem| && forall i :: 0 <= i < |r| ==> r[i] == if stem[i] == ' ' then '_' else stem[i]
  {
    var stem := ReplaceAll(documentName, ".pdf", "");
    ReplaceAllLength(documentName, ".pdf", "");
    ReplaceCharPointwise(stem, ' ', '_');
    ReplaceAll(stem, " ", "_")
  }

  /** For a name ending in its only ".pdf", the safe name is the stem with
      spaces turned into '_'. */
  lemma SafeNameDropsExtension(stem: string)
    requires !Occurs(stem, ".pdf")
    ensures SafeName(stem + ".pdf") == ReplaceAll(stem, " ", "_")
  {
    RemoveTrailingPdf(stem);
  }

  /** One left-to-right pass of `replace('.pdf', '')` over "a..pdfpdf". */
  lemma PdfRemovalExample()
    ensures ReplaceAll("a..pdfpdf", ".pdf", "") == "a.pdf"
  {
    var s := "a..pdfpdf";
    var pat := ".pdf";
    assert s[6..] == "pdf";
    assert ReplaceAll(s[6..], pat, "") == "pdf";
    assert s[2..][..4] == pat && s[2..][4..] == s[6..];
    assert ReplaceAll(s[2..], pat, "") == "pdf";
    assert s[1..][..4][1] != pat[1];
    assert s[1..][1..] == s[2..];
    assert ReplaceAll(s[1..], pat, "") == ".pdf";
    assert s[..4][0] != pat[0];
  }

  /** Removing ".pdf" can join the pieces around it into a new ".pdf": the
      replacement is a single left-to-right pass. */
  lemma SafeNameCanKeepPdf()
    ensures SafeName("a..pdfpdf") == "a.pdf"
  {
    PdfRemovalExample();
    ReplaceCharPointwise("a.pdf", ' ', '_');
    var r := ReplaceAll("a.pdf", " ", "_");
    assert forall i :: 0 <= i < 5 ==> "a.pdf"[i] != ' ';
    assert r == "a.pdf";
  }

  const JsonReportSuffix := "_refine_report.json"
  const CsvLogInfix := "_refine_log_"

  /** `{safe_name}_refine_report.json`: the safe name, then a fixed ending;
      it contains no space. */
  function JsonReportName(documentName: string): (r: string)
    ensures SafeName(documentName) <= r
    ensures forall i :: 0 <= i < |r| ==> r[i] != ' '
  {
    SafeName(documentName) + JsonReportSuffix
  }

  /** Two documents share a JSON report file exactly when their safe names
      agree, so a rerun of a document overwrites its report. */
  lemma JsonReportNameIff(a: string, b: string)
    ensures JsonReportName(a) == JsonReportName(b) <==> SafeName(a) == SafeName(b)
  {
    if JsonReportName(a) == JsonReportName(b) {
      CancelAround("", SafeName(a), SafeName(b), JsonReportSuffix);
    }
  }

  /** `{safe_name}_refine_log_{timestamp}.csv`; the timestamp comes from the clock. */
  function CsvLogName(documentName: string, timestamp: string): (r: string)
    ensures SafeName(documentName) <= r
    ensures |r| == |SafeName(documentName)| + |CsvLogInfix| + |timestamp| + 4
  {
    SafeName(documentName) + CsvLogInfix + timestamp + ".csv"
  }

  /** The CSV logs of one document are kept apart exactly by their
      timestamps: two runs in the same second write the same file. */
  lemma CsvLogNameIff(documentName: string, t1: string, t2: string)
    ensures CsvLogName(documentName, t1) == CsvLogName(documentName, t2) <==> t1 == t2
  {
    if CsvLogName(documentName, t1) == CsvLogName(documentName, t2) {
      CancelAround(SafeName(documentName) + CsvLogInfix, t1, t2, ".csv");
    }
  }

  /** One element of the JSON report's `refine_results`. */
  datatype RefineEntry = RefineEntry(
    pageNum: int,
    strategy: string,
    needRefine: bool,
    refined: bool,
    refineActions: seq<string>,
    characterDiff: int,
    improvements: map<string, int>,
    originalLength: nat,
    refinedLength: nat)

  /** The entry for one refine result; a missing refined text has length 0. */
  function RefineEntryOf(r: RefineResult): (e: RefineEntry)
    ensures e.pageNum == r.pageNum && e.strategy == r.strategy
    ensures e.needRefine == r.needRefine && e.refined == r.refined
    ensures e.originalLength == |r.originalText|
    ensures r.refinedText.None? ==> e.refinedLength == 0
    ensures r.refinedText.Some? ==> e.refinedLength == |r.refinedText.value|
  {
    RefineEntry(
      r.pageNum, r.strategy, r.needRefine, r.refined, r.refineActions, r.characterDiff, r.improvements,
      if r.originalText != [] then |r.originalText| else 0,
      if r.refinedText.Some? && r.refinedText.value != [] then |r.refinedText.value| else 0)
  }

  /** For a page the refine stage refined, the report's two lengths differ
      by exactly the recorded character difference. */
  lemma EntryLengthsAgreeWithDiff(k: nat, text: string, pageNum: int, strategy: string,
                                  issues: Issues, llm: RefineAgent.RefineLlm)
    ensures var r := RefineAgent.RefinePage(k, text, pageNum, strategy, issues, llm);
      var e := RefineEntryOf(r);
      r.refined ==> e.refinedLength - e.originalLength == e.characterDiff
  {
  }

  /** One element of the JSON report's `validation_results`. */
  datatype ValidationEntry = ValidationEntry(
    pageNum: int, strategy: string, needRefine: bool, issues: Issues, confidence: real, reason: string)

  function ValidationEntryOf(v: ValidationResult): (e: ValidationEntry)
    ensures e.pageNum == v.pageNum && e.strategy == v.strategy && e.needRefine == v.needRefine
    ensures e.issues == v.issues && e.confidence == v.confidence && e.reason == v.reason
  {
    ValidationEntry(v.pageNum, v.strategy, v.needRefine, v.issues, v.confidence, v.reason)
  }

  /** One row of the CSV log, without the confidence, time and cost columns
      (those are number formatting of fields the JSON report carries). */
  datatype CsvRow = CsvRow(
    pageNum: int,
    strategy: string,
    needRefine: string,
    refined: string,
    issueFlags: seq<string>,
    reason: string,
    refineActions: string,
    characterDiff: int,
    originalPreview: string,
    refinedPreview: string)

  function YesNo(b: bool): string {
    if b then "Yes" else "No"
  }

  const PreviewLimit: nat := 100
  const Ellipsis := "..."

  /** A preview column: the first 100 characters and "...", or empty when
      there is no text. */
  function Preview(t: Option<string>): (r: string)
    ensures r == [] <==> t.None? || t.value == []
    ensures r != [] ==> 3 <= |r| <= PreviewLimit + |Ellipsis| && r[|r| - 3..] == Ellipsis
    ensures r != [] ==> r[..|r| - 3] == Prefix(t.value, PreviewLimit)
  {
    if t.Some? && t.value != [] then
      var p := Prefix(t.value, PreviewLimit);
      assert (p + Ellipsis)[..|p|] == p;
      p + Ellipsis
    else ""
  }

  /** The row for one validation and the refine result it was matched with. */
  function RowOf(v: ValidationResult, m: Option<RefineResult>): (row: CsvRow)
    ensures row.pageNum == v.pageNum && row.strategy == v.strategy && row.reason == v.reason
    ensures row.needRefine == "Yes" <==> v.needRefine
    ensures row.refined == "Yes" <==> m.Some? && m.value.refined
    ensures |row.issueFlags| == |IssueNames|
    ensures forall k :: 0 <= k < |IssueNames| ==> (row.issueFlags[k] == "Yes" <==> Flag(v.issues, IssueNames[k]))
    ensures m.None? ==>
      && row.refineActions == "" && row.characterDiff == 0
      && row.originalPreview == "" && row.refinedPreview == ""
    ensures m.Some? ==>
      && row.refineActions == Join(m.value.refineActions, ", ")
      && row.characterDiff == m.value.characterDiff
      && row.originalPreview == Preview(Some(m.value.originalText))
      && row.refinedPreview == Preview(m.value.refinedText)
  {
    CsvRow(
      v.pageNum, v.strategy, YesNo(v.needRefine),
      YesNo(m.Some? && m.value.refined),
      seq(|IssueNames|, k requires 0 <= k < |IssueNames| => YesNo(Flag(v.issues, IssueNames[k]))),
      v.reason,
      if m.Some? then Join(m.value.refineActions, ", ") else "",
      if m.Some? then m.value.characterDiff else 0,
      if m.Some? then Preview(Some(m.value.originalText)) else "",
      if m.Some? then Preview(m.value.refinedText) else "")
  }

  /** `refine_dict = {r.page_num: r for r in refine_results}`: keyed by page
      number alone, a later result replacing an earlier one. */
  function ByPageNum(rs: seq<RefineResult>): (m: map<int, RefineResult>)
    ensures forall i :: 0 <= i < |rs| ==> rs[i].pageNum in m
    ensures forall p :: p in m ==> m[p].pageNum == p && m[p] in rs
    decreases |rs|
  {
    if rs == [] then map[]
    else
      var m := ByPageNum(rs[..|rs| - 1]);
      assert forall i :: 0 <= i < |rs| - 1 ==> rs[..|rs| - 1][i] == rs[i];
      m[rs[|rs| - 1].pageNum := rs[|rs| - 1]]
  }

  /** `j` is the last position of a result with this page number. */
  predicate LastPageAt(rs: seq<RefineResult>, pageNum: int, j: int) {
    0 <= j < |rs| && rs[j].pageNum == pageNum && forall k :: j < k < |rs| ==> rs[k].pageNum != pageNum
  }

  /** Reference definition: the last refine result with this page number,
      whatever its strategy. */
  function LastForPage(rs: seq<RefineResult>, pageNum: int): (m: Option<RefineResult>)
    ensures m.None? <==> forall j :: 0 <= j < |rs| ==> rs[j].pageNum != pageNum
    ensures m.Some? ==> (exists j :: LastPageAt(rs, pageNum, j) && rs[j] == m.value)
    decreases |rs|
  {
    if rs == [] then None
    else if rs[|rs| - 1].pageNum == pageNum then
      assert LastPageAt(rs, pageNum, |rs| - 1);
      Some(rs[|rs| - 1])
    else
      var init := rs[..|rs| - 1];
      assert forall j :: 0 <= j < |init| ==> init[j] == rs[j];
      var m := LastForPage(init, pageNum);
      assert m.Some? ==> (exists j :: LastPageAt(rs, pageNum, j) && rs[j] == m.value) by {
        if m.Some? {
          var j :| LastPageAt(init, pageNum, j) && init[j] == m.value;
          assert LastPageAt(rs, pageNum, j);
        }
      }
      m
  }

  /** Looking a page number up in `refine_dict` finds the last refine result
      with that page number. */
  lemma {:induction false} ByPageNumIsLast(rs: seq<RefineResult>, pageNum: int)
    ensures (if pageNum in ByPageNum(rs) then Some(ByPageNum(rs)[pageNum]) else None) == LastForPage(rs, pageNum)
    decreases |rs|
  {
    if rs != [] {
      ByPageNumIsLast(rs[..|rs| - 1], pageNum);
    }
  }

  /** `_save_csv_log`'s rows as written: each validation is matched with the
      last refine result for the same page number, whatever its strategy. */
  function CsvRowsAsWritten(rep: Report): (rows: seq<CsvRow>)
    ensures |rows| == |rep.validationResults|
    ensures forall i :: 0 <= i < |rows| ==>
      rows[i] == RowOf(rep.validationResults[i], LastForPage(rep.refineResults, rep.validationResults[i].pageNum))
  {
    var byPage := ByPageNum(rep.refineResults);
    assert forall p :: (if p in byPage then Some(byPage[p]) else None) == LastForPage(rep.refineResults, p) by {
      forall p
        ensures (if p in byPage then Some(byPage[p]) else None) == LastForPage(rep.refineResults, p)
      {
        ByPageNumIsLast(rep.refineResults, p);
      }
    }
    seq(|rep.validationResults|, i requires 0 <= i < |rep.validationResults| =>
      var v := rep.validationResults[i];
      RowOf(v, if v.pageNum in byPage then Some(byPage[v.pageNum]) else None))
  }

  /** `j` is the last position of a result for this strategy and page. */
  predicate LastRefineAt(rs: seq<RefineResult>, strategy: string, pageNum: int, j: int) {
    && 0 <= j < |rs| && rs[j].strategy == strategy && rs[j].pageNum == pageNum
    && forall k :: j < k < |rs| ==> !(rs[k].strategy == strategy && rs[k].pageNum == pageNum)
  }

  /** The last refine result for this strategy and page. */
  function LastRefineFor(rs: seq<RefineResult>, strategy: string, pageNum: int): (m: Option<RefineResult>)
    ensures m.None? <==> forall j :: 0 <= j < |rs| ==> !(rs[j].strategy == strategy && rs[j].pageNum == pageNum)
    ensures m.Some? ==> (exists j :: LastRefineAt(rs, strategy, pageNum, j) && rs[j] == m.value)
    decreases |rs|
  {
    if rs == [] then None
    else if rs[|rs| - 1].strategy == strategy && rs[|rs| - 1].pageNum == pageNum then
      assert LastRefineAt(rs, strategy, pageNum, |rs| - 1);
      Some(rs[|rs| - 1])
    else
      var init := rs[..|rs| - 1];
      assert forall j :: 0 <= j < |init| ==> init[j] == rs[j];
      var m := LastRefineFor(init, strategy, pageNum);
      assert m.Some? ==> (exists j :: LastRefineAt(rs, strategy, pageNum, j) && rs[j] == m.value) by {
        if m.Some? {
          var j :| LastRefineAt(init, strategy, pageNum, j) && init[j] == m.value;
          assert LastRefineAt(rs, strategy, pageNum, j);
        }
      }
      m
  }

  /** Some refine result is for this strategy and page. */
  predicate HasRefineFor(rs: seq<RefineResult>, strategy: string, pageNum: int) {
    exists j :: 0 <= j < |rs| && rs[j].strategy == strategy && rs[j].pageNum == pageNum
  }

  predicate RefineIsFor(r: RefineResult, v: ValidationResult) {
    r.strategy == v.strategy && r.pageNum == v.pageNum
  }

  /** The CSV rows with each validation matched to the refine result of the
      same strategy and page: a row says "refined" when that page was, and
      "not refined" when it was not (or has no refine result). */
  function CsvRows(rep: Report): (rows: seq<CsvRow>)
    ensures |rows| == |rep.validationResults|
    ensures forall i :: 0 <= i < |rows| ==>
      rows[i].pageNum == rep.validationResults[i].pageNum && rows[i].strategy == rep.validationResults[i].strategy
    ensures forall i :: 0 <= i < |rows| ==>
      var v := rep.validationResults[i];
      && (rows[i].refined == "Yes" ==>
            exists j :: 0 <= j < |rep.refineResults| && rep.refineResults[j].refined
              && rep.refineResults[j].strategy == v.strategy && rep.refineResults[j].pageNum == v.pageNum)
      && (HasRefineFor(rep.refineResults, v.strategy, v.pageNum)
          && (forall j :: 0 <= j < |rep.refineResults| && RefineIsFor(rep.refineResults[j], v) ==>
                rep.refineResults[j].refined)
          ==> rows[i].refined == "Yes")
    ensures forall i :: 0 <= i < |rows| ==>
      var v := rep.validationResults[i];
      rows[i] == RowOf(v, LastRefineFor(rep.refineResults, v.strategy, v.pageNum))
  {
    seq(|rep.validationResults|, i requires 0 <= i < |rep.validationResults| =>
      var v := rep.validationResults[i];
      RowOf(v, LastRefineFor(rep.refineResults, v.strategy, v.pageNum)))
  }

  /** When every result for this page number carries this strategy, the
      page-number lookup finds the same result as the strategy-and-page one. */
  lemma {:induction false} LastMatchesAgree(rs: seq<RefineResult>, strategy: string, pageNum: int)
    requires forall j :: 0 <= j < |rs| && rs[j].pageNum == pageNum ==> rs[j].strategy == strategy
    ensures LastForPage(rs, pageNum) == LastRefineFor(rs, strategy, pageNum)
    decreases |rs|
  {
    if rs != [] && rs[|rs| - 1].pageNum != pageNum {
      var init := rs[..|rs| - 1];
      assert forall j :: 0 <= j < |init| ==> init[j] == rs[j];
      LastMatchesAgree(init, strategy, pageNum);
    }
  }

  /** The CSV file `_save_csv_log` writes: the page-number-joined rows, and
      only when there is at least one of them. */
  function CsvFile(rep: Report): (f: Option<seq<CsvRow>>)
    ensures f.None? <==> rep.validationResults == []
    ensures f.Some? ==> f.value == CsvRowsAsWritten(rep)
  {
    var rows := CsvRowsAsWritten(rep);
    if rows != [] then Some(rows) else None
  }

  /** The CSV file with each verdict joined on strategy and page. */
  function CorrectedCsvFile(rep: Report): (f: Option<seq<CsvRow>>)
    ensures f.None? <==> rep.validationResults == []
    ensures f.Some? ==> f.value == CsvRows(rep)
  {
    var rows := CsvRows(rep);
    if rows != [] then Some(rows) else None
  }

  /** The two files agree whenever every refine result for a verdict's page
      number carries that verdict's strategy. */
  lemma CsvFilesAgreeOnOneStrategy(rep: Report)
    requires forall i, j ::
      0 <= i < |rep.validationResults| && 0 <= j < |rep.refineResults|
        && rep.refineResults[j].pageNum == rep.validationResults[i].pageNum
      ==> rep.refineResults[j].strategy == rep.validationResults[i].strategy
    ensures CsvFile(rep) == CorrectedCsvFile(rep)
  {
    var rs := rep.refineResults;
    forall i | 0 <= i < |rep.validationResults|
      ensures CsvRowsAsWritten(rep)[i] == CsvRows(rep)[i]
    {
      var v := rep.validationResults[i];
      LastMatchesAgree(rs, v.strategy, v.pageNum);
    }
    assert CsvRowsAsWritten(rep) == CsvRows(rep);
  }

  function SamplePage(strategy: string, refined: bool): RefineResult {
    RefineResult(1, ExtractionId(strategy, 1), strategy, "text", if refined then Some("text.") else None,
      refined, refined, [], if refined then 1 else 0, map[], 0.0, 0.0, None)
  }

  function SampleValidation(strategy: string, need: bool): ValidationResult {
    ValidationResult(1, ExtractionId(strategy, 1), strategy, need, map[], 1.0, "", 0.0, 0.0, None)
  }

  /** Two strategies, page 1 each; only strategy "a" needed and got refining.
      The row of "a"'s page 1 is matched with "b"'s result under the page-number
      key and says "No"; matched by strategy and page it says "Yes". */
  lemma CsvJoinMixesStrategies()
    ensures var rep := Report("doc.pdf", "a", 2, 1, 1, 1,
        [SampleValidation("a", true), SampleValidation("b", false)],
        [SamplePage("a", true), SamplePage("b", false)], 0.0, 0.0);
      && CsvFile(rep).Some? && CsvFile(rep).value[0].refined == "No"
      && CorrectedCsvFile(rep).Some? && CorrectedCsvFile(rep).value[0].refined == "Yes"
  {
    var rs := [SamplePage("a", true), SamplePage("b", false)];
    assert rs[..1] == [SamplePage("a", true)];
    assert ByPageNum(rs)[1] == SamplePage("b", false);
    assert LastRefineFor(rs, "a", 1) == Some(SamplePage("a", true)) by {
      assert rs[..1][0] == SamplePage("a", true);
    }
  }
}

=== FILE: refine_validation.dfy ===
/** Stage 2 of the refine pipeline: decide, page by page, whether a page's
    extracted text needs refining. Short pages are settled without the LLM;
    a failed LLM call counts as "no refine needed". */
module RefineValidation {
  import opened Wrappers
  import opened Text
  import opened RefineModel
  import opened RefinePrompts

  /** Pages whose stripped text is shorter than this are never sent to the LLM. */
  const MinTextLength: nat := 50

  const ShortTextReason := "텍스트가 너무 짧아 정제 불필요"
  const FailureReasonLead := "검증 실패: "

  /** The fields of the LLM's JSON answer the stage reads; each may be missing. */
  datatype ValidationReply = ValidationReply(
    needRefine: Option<bool>,
    issues: Option<Issues>,
    confidence: Option<real>,
    reason: Option<string>)

  /** The LLM, asked for the `k`-th page of the run with the given prompt. */
  type ValidationLlm = (nat, string) -> LlmCall<ValidationReply>

  predicate IsShort(text: string) {
    |Strip(text)| < MinTextLength
  }

  /** `_validate_page`: ask the LLM; fields its answer lacks take their
      defaults, and a raised call gives a result that does not ask for
      refining and carries the error. */
  function ValidatePage(k: nat, pageText: string, pageNum: int, strategy: string, llm: ValidationLlm)
    : (r: ValidationResult)
    ensures r.pageNum == pageNum && r.strategy == strategy
    ensures r.extractionId == ExtractionId(strategy, pageNum)
    ensures r.processingTimeMs == llm(k, RefineValidationPrompt(pageText, pageNum)).elapsedMs
    ensures r.error.Some? <==> llm(k, RefineValidationPrompt(pageText, pageNum)).outcome.Raised?
    ensures r.error.Some? ==>
      && !r.needRefine && r.issues == map[] && r.confidence == 0.0 && r.llmCostUsd == 0.0
      && r.reason == FailureReasonLead + r.error.value
    ensures match llm(k, RefineValidationPrompt(pageText, pageNum)).outcome
      case Raised(msg) => r.error == Some(msg)
      case Answered(reply, cost) =>
        && r.llmCostUsd == cost
        && (r.needRefine <==> reply.needRefine == Some(true))
        && (reply.issues.None? ==> r.issues == map[])
        && (reply.issues.Some? ==> r.issues == reply.issues.value)
        && (reply.confidence.None? ==> r.confidence == 0.0)
        && (reply.confidence.Some? ==> r.confidence == reply.confidence.value)
        && (reply.reason.None? ==> r.reason == "")
        && (reply.reason.Some? ==> r.reason == reply.reason.value)
  {
    var call := llm(k, RefineValidationPrompt(pageText, pageNum));
    match call.outcome
    case Answered(reply, cost) =>
      ValidationResult(
        pageNum, ExtractionId(strategy, pageNum), strategy,
        reply.needRefine.GetOr(false), reply.issues.GetOr(map[]),
        reply.confidence.GetOr(0.0), reply.reason.GetOr(""),
        call.elapsedMs, cost, None)
    case Raised(msg) =>
      ValidationResult(
        pageNum, ExtractionId(strategy, pageNum), strategy,
        false, map[], 0.0, FailureReasonLead + msg,
        call.elapsedMs, 0.0, Some(msg))
  }

  /** One iteration of the page loop of `run`: a short page is settled
      without the LLM as "no refine needed" with full confidence. */
  function CheckPage(k: nat, page: PageRef, llm: ValidationLlm): (r: ValidationResult)
    ensures r.pageNum == page.page.pageNum && r.strategy == page.strategy
    ensures r.extractionId == ExtractionId(page.strategy, page.page.pageNum)
    ensures r.error.Some? ==> !r.needRefine
    ensures IsShort(page.page.text) ==>
      && !r.needRefine && r.issues == map[] && r.confidence == 1.0
      && r.reason == ShortTextReason
      && r.processingTimeMs == 0.0 && r.llmCostUsd == 0.0 && r.error.None?
    ensures !IsShort(page.page.text) ==>
      r == ValidatePage(k, page.page.text, page.page.pageNum, page.strategy, llm)
  {
    var p := page.page;
    if IsShort(p.text) then
      ValidationResult(
        p.pageNum, ExtractionId(page.strategy, p.pageNum), page.strategy,
        false, map[], 1.0, ShortTextReason, 0.0, 0.0, None)
    else
      ValidatePage(k, p.text, p.pageNum, page.strategy, llm)
  }

  /** The loop's results for the pages from the `k`-th on, one per page, in order. */
  function CheckPages(pages: seq<PageRef>, k: nat, llm: ValidationLlm): (r: seq<ValidationResult>)
    ensures |r| == |pages|
    ensures forall i :: 0 <= i < |pages| ==> r[i] == CheckPage(k + i, pages[i], llm)
  {
    seq(|pages|, i requires 0 <= i < |pages| => CheckPage(k + i, pages[i], llm))
  }

  /** `state = add_refine_validation_result(state, r)` for each result in
      turn: the results end up appended in order, and nothing else changes. */
  function AddAll(s: RefineState, vs: seq<ValidationResult>): (r: RefineState)
    ensures r == s.(validationResults := s.validationResults + vs)
    decreases |vs|
  {
    if vs == [] then
      assert s.validationResults + vs == s.validationResults;
      s
    else
      var r := AddAll(AddValidationResult(s, vs[0]), vs[1..]);
      assert s.validationResults + [vs[0]] + vs[1..] == s.validationResults + vs;
      r
  }

  /** `RefineValidationAgent.run`: every page of every strategy gets exactly
      one validation result (the `k`-th visited page the `k`-th of
      `CheckPages`), appended in visiting order after the earlier results;
      nothing else changes but the stage, which becomes
      "refine_validation_complete". */
  function Run(s: RefineState, llm: ValidationLlm): (r: RefineState)
    ensures r.currentStage == StageValidated
    ensures r == s.(validationResults := r.validationResults, currentStage := StageValidated)
    ensures |r.validationResults| == |s.validationResults| + TotalPages(s.extractionResults)
    ensures r.validationResults == s.validationResults + CheckPages(Flatten(s.extractionResults), 0, llm)
  {
    AddAll(s, CheckPages(Flatten(s.extractionResults), 0, llm)).(currentStage := StageValidated)
  }

  /** The stage never consults the LLM when every page is short. */
  lemma ShortPagesNeedNoLlm(s: RefineState, llm1: ValidationLlm, llm2: ValidationLlm)
    requires forall p :: p in Flatten(s.extractionResults) ==> IsShort(p.page.text)
    ensures Run(s, llm1) == Run(s, llm2)
  {
    var pages := Flatten(s.extractionResults);
    assert CheckPages(pages, 0, llm1) == CheckPages(pages, 0, llm2) by {
      forall i | 0 <= i < |pages|
        ensures CheckPage(i, pages[i], llm1) == CheckPage(i, pages[i], llm2)
      {
        assert pages[i] in pages;
      }
    }
  }

  /** The number of results whose `need_refine` is `want`. */
  function CountNeed(vs: seq<ValidationResult>, want: bool): (n: nat)
    ensures n <= |vs|
    decreases |vs|
  {
    if vs == [] then 0
    else CountNeed(vs[..|vs| - 1], want) + (if vs[|vs| - 1].needRefine == want then 1 else 0)
  }

  datatype ValidationSummary = ValidationSummary(totalPages: nat, needRefine: nat, noRefine: int)

  /** The statistics `run` prints; "No Refine" is computed as the remainder. */
  function Summarize(vs: seq<ValidationResult>): (r: ValidationSummary)
    ensures r.totalPages == |vs|
    ensures r.needRefine + r.noRefine == r.totalPages
    ensures r.noRefine == CountNeed(vs, false)
  {
    NeedCountsSplit(vs);
    var need := CountNeed(vs, true);
    ValidationSummary(|vs|, need, |vs| - need)
  }

  /** Every result either asks for refining or does not. */
  lemma {:induction false} NeedCountsSplit(vs: seq<ValidationResult>)
    ensures CountNeed(vs, true) + CountNeed(vs, false) == |vs|
    decreases |vs|
  {
    if vs != [] {
      NeedCountsSplit(vs[..|vs| - 1]);
    }
  }
}

=== FILE: text.dfy ===
/** Python string operations the pipeline relies on, on `string` = `seq<char>`
    (one element per code point, as Python's `len` counts). */
module Text {

  /** Python 3's `str.isspace` characters: the separators and the Unicode
      white-space code points `strip()` removes. */
  predicate IsSpace(c: char) {
    || c == ' ' || c == '\t' || c == '\n' || c == '\r'
    || c == '\U{000B}' || c == '\U{000C}'
    || ('\U{001C}' <= c <= '\U{001F}')
    || c == '\U{0085}' || c == '\U{00A0}' || c == '\U{1680}'
    || ('\U{2000}' <= c <= '\U{200A}')
    || c == '\U{2028}' || c == '\U{2029}' || c == '\U{202F}' || c == '\U{205F}' || c == '\U{3000}'
  }

  /** Every character is white space (the empty string included). */
  predicate IsBlank(s: string) {
    forall i :: 0 <= i < |s| ==> IsSpace(s[i])
  }

  /** `s.lstrip()`: the longest suffix of `s` that does not start with white space. */
  function TrimStart(s: string): (r: string)
    ensures |r| <= |s| && r == s[|s| - |r|..]
    ensures forall i :: 0 <= i < |s| - |r| ==> IsSpace(s[i])
    ensures r == [] || !IsSpace(r[0])
  {
    if s == [] || !IsSpace(s[0]) then s else TrimStart(s[1..])
  }

  /** `s.rstrip()`: the longest prefix of `s` that does not end with white space. */
  function TrimEnd(s: string): (r: string)
    ensures |r| <= |s| && r == s[..|r|]
    ensures forall i :: |r| <= i < |s| ==> IsSpace(s[i])
    ensures r == [] || !IsSpace(r[|r| - 1])
  {
    if s == [] || !IsSpace(s[|s| - 1]) then s else TrimEnd(s[..|s| - 1])
  }

  /** `s.strip()`: white space removed from both ends; it is empty exactly
      when `s` is blank, and otherwise starts and ends with a non-space.
      StripIsSlice, BlankBeforeStrip and BlankAfterStrip place it inside `s`. */
  function Strip(s: string): (r: string)
    ensures |r| <= |s|
    ensures r == [] <==> IsBlank(s)
    ensures r != [] ==> !IsSpace(r[0]) && !IsSpace(r[|r| - 1])
  {
    TrimEnd(TrimStart(s))
  }

  /** Where `strip()` keeps its slice: the number of leading white-space characters. */
  function StripStart(s: string): (a: nat)
    ensures a <= |s|
  {
    |s| - |TrimStart(s)|
  }

  /** A stretch of white space is blank. */
  lemma BlankSlice(s: string, lo: nat, hi: nat)
    requires lo <= hi <= |s|
    requires forall i :: lo <= i < hi ==> IsSpace(s[i])
    ensures IsBlank(s[lo..hi])
  {
    forall i | 0 <= i < hi - lo
      ensures IsSpace(s[lo..hi][i])
    {
      assert s[lo..hi][i] == s[lo + i];
    }
  }

  /** A suffix `t` of `s` after white space, and a prefix `r` of `t` before
      white space, form a slice of `s` with only white space around it. */
  lemma SliceBetweenBlanks(s: string, t: string, r: string)
    requires |t| <= |s| && t == s[|s| - |t|..]
    requires |r| <= |t| && r == t[..|r|]
    requires forall i :: 0 <= i < |s| - |t| ==> IsSpace(s[i])
    requires forall i :: |r| <= i < |t| ==> IsSpace(t[i])
    ensures var a := |s| - |t|;
      r == s[a..a + |r|] && IsBlank(s[..a]) && IsBlank(s[a + |r|..])
  {
    var a := |s| - |t|;
    assert s[a..a + |r|] == t[..|r|];
    BlankSlice(s, 0, a);
    forall i | a + |r| <= i < |s|
      ensures IsSpace(s[i])
    {
      assert s[i] == t[i - a];
    }
    BlankSlice(s, a + |r|, |s|);
    assert s[..a] == s[0..a] && s[a + |r|..] == s[a + |r|..|s|];
  }

  /** A prefix `r` of a suffix `t` of `s` is a slice of `s`. */
  lemma SuffixThenPrefix<T>(s: seq<T>, t: seq<T>, r: seq<T>)
    requires |t| <= |s| && t == s[|s| - |t|..]
    requires |r| <= |t| && r == t[..|r|]
    ensures r == s[|s| - |t|..|s| - |t| + |r|]
  {
  }

  /** `s.strip()` is the slice of `s` starting after the leading white space. */
  lemma StripIsSlice(s: string)
    ensures StripStart(s) + |Strip(s)| <= |s|
    ensures Strip(s) == s[StripStart(s)..StripStart(s) + |Strip(s)|]
  {
    SuffixThenPrefix(s, TrimStart(s), Strip(s));
  }

  /** Only white space precedes what `s.strip()` keeps. */
  lemma BlankBeforeStrip(s: string)
    ensures IsBlank(s[..StripStart(s)])
  {
    SliceBetweenBlanks(s, TrimStart(s), Strip(s));
  }

  /** Only white space follows what `s.strip()` keeps. */
  lemma BlankAfterStrip(s: string)
    ensures StripStart(s) + |Strip(s)| <= |s|
    ensures IsBlank(s[StripStart(s) + |Strip(s)|..])
  {
    SliceBetweenBlanks(s, TrimStart(s), Strip(s));
  }

  /** `s[:n]` for a non-negative `n`: the first `n` characters, or all of `s`. */
  function Prefix(s: string, n: nat): (r: string)
    ensures |r| == if |s| < n then |s| else n
    ensures r <= s
  {
    if |s| <= n then s else s[..n]
  }

  /** The combined length of all parts. */
  function TotalLength(parts: seq<string>): nat
  {
    if parts == [] then 0 else TotalLength(parts[..|parts| - 1]) + |parts[|parts| - 1]|
  }

  /** `sep.join(parts)`. */
  function Join(parts: seq<string>, sep: string): string
  {
    if |parts| == 0 then ""
    else if |parts| == 1 then parts[0]
    else Join(parts[..|parts| - 1], sep) + sep + parts[|parts| - 1]
  }

  /** A joined list holds every part and one separator between neighbours. */
  lemma {:induction false} JoinLength(parts: seq<string>, sep: string)
    requires parts != []
    ensures |Join(parts, sep)| == TotalLength(parts) + (|parts| - 1) * |sep|
    decreases |parts|
  {
    if |parts| >= 2 {
      var init := parts[..|parts| - 1];
      JoinLength(init, sep);
      assert (|parts| - 1) * |sep| == (|init| - 1) * |sep| + |sep|;
    }
  }

  /** `pat` starts at index `i` of `s`. */
  predicate OccursAt(s: string, pat: string, i: nat) {
    i + |pat| <= |s| && s[i..i + |pat|] == pat
  }

  ghost predicate Occurs(s: string, pat: string) {
    exists i: nat :: OccursAt(s, pat, i)
  }

  /** `s.replace(pat, rep)` for a non-empty `pat`: occurrences are found from
      the left and do not overlap; text produced by a replacement is not
      searched again. */
  function ReplaceAll(s: string, pat: string, rep: string): string
    requires |pat| > 0
    decreases |s|
  {
    if |s| < |pat| then s
    else if s[..|pat|] == pat then rep + ReplaceAll(s[|pat|..], pat, rep)
    else [s[0]] + ReplaceAll(s[1..], pat, rep)
  }

  /** A replacement no longer than the pattern never lengthens the text, and
      one of the same length keeps its length. */
  lemma {:induction false} ReplaceAllLength(s: string, pat: string, rep: string)
    requires |pat| > 0
    ensures |rep| <= |pat| ==> |ReplaceAll(s, pat, rep)| <= |s|
    ensures |rep| == |pat| ==> |ReplaceAll(s, pat, rep)| == |s|
    decreases |s|
  {
    if |s| >= |pat| {
      if s[..|pat|] == pat {
        ReplaceAllLength(s[|pat|..], pat, rep);
      } else {
        ReplaceAllLength(s[1..], pat, rep);
      }
    }
  }

  /** Replacing one character by another is a pointwise map. */
  lemma {:induction false} ReplaceCharPointwise(s: string, c: char, d: char)
    ensures |ReplaceAll(s, [c], [d])| == |s|
    ensures forall i :: 0 <= i < |s| ==>
      ReplaceAll(s, [c], [d])[i] == if s[i] == c then d else s[i]
    decreases |s|
  {
    if |s| >= 1 {
      ReplaceCharPointwise(s[1..], c, d);
      var tail := ReplaceAll(s[1..], [c], [d]);
      if s[..1] == [c] {
        assert s[0] == c;
        assert ReplaceAll(s, [c], [d]) == [d] + tail;
      } else {
        assert s[0] != c;
        assert ReplaceAll(s, [c], [d]) == [s[0]] + tail;
      }
    }
  }

  /** An occurrence in the tail of `s` is one in `s`, a place further on. */
  lemma OccursInTail(s: string, pat: string, i: nat)
    requires s != [] && OccursAt(s[1..], pat, i)
    ensures OccursAt(s, pat, i + 1)
  {
    assert s[1..][i..i + |pat|] == s[i + 1..i + 1 + |pat|];
  }

  /** A string in which `pat` never occurs is left unchanged. */
  lemma {:induction false} ReplaceAbsent(s: string, pat: string, rep: string)
    requires |pat| > 0 && !Occurs(s, pat)
    ensures ReplaceAll(s, pat, rep) == s
    decreases |s|
  {
    if |s| >= |pat| {
      assert !OccursAt(s, pat, 0);
      assert !Occurs(s[1..], pat) by {
        forall i: nat | OccursAt(s[1..], pat, i)
          ensures false
        {
          OccursInTail(s, pat, i);
        }
      }
      ReplaceAbsent(s[1..], pat, rep);
      assert s == [s[0]] + s[1..];
    }
  }

  /** Removing ".pdf" from `base + ".pdf"` gives back `base` when `base` has no
      ".pdf" of its own: since '.' occurs only at the start of ".pdf", no
      occurrence can straddle the junction. */
  lemma {:induction false} RemoveTrailingPdf(base: string)
    requires !Occurs(base, ".pdf")
    ensures ReplaceAll(base + ".pdf", ".pdf", "") == base
    decreases |base|
  {
    var s := base + ".pdf";
    if base == [] {
      assert s[..4] == ".pdf";
      assert s[4..] == [];
    } else {
      if |base| >= 4 {
        assert s[..4] == base[..4];
        assert !OccursAt(base, ".pdf", 0);
      } else {
        // base would have to be a proper prefix of ".pdf", whose next
        // character is not the '.' that starts the suffix
        assert s[|base|] == '.';
        assert s[..4][|base|] != ".pdf"[|base|];
      }
      assert !Occurs(base[1..], ".pdf") by {
        forall i: nat | OccursAt(base[1..], ".pdf", i)
          ensures false
        {
          OccursInTail(base, ".pdf", i);
        }
      }
      RemoveTrailingPdf(base[1..]);
      assert s[1..] == base[1..] + ".pdf";
      assert base == [base[0]] + base[1..];
    }
  }

  predicate IsDigit(c: char) {
    '0' <= c <= '9'
  }

  function DigitChar(d: nat): (c: char)
    requires d < 10
    ensures IsDigit(c) && c as int - '0' as int == d
  {
    ('0' as int + d) as char
  }

  /** `str(n)` for a natural number: decimal digits, no leading zeros. */
  function NatToString(n: nat): (r: string)
    ensures |r| >= 1
    ensures forall i :: 0 <= i < |r| ==> IsDigit(r[i])
    ensures n >= 10 <==> |r| >= 2
    decreases n
  {
    if n < 10 then [DigitChar(n)] else NatToString(n / 10) + [DigitChar(n % 10)]
  }

  /** `str(n)` for any integer: a '-' before the digits of a negative number. */
  function IntToString(n: int): (r: string)
    ensures |r| >= 1
    ensures forall i :: 0 <= i < |r| ==> r[i] == '-' || IsDigit(r[i])
    ensures (n < 0) <==> r[0] == '-'
  {
    if n < 0 then "-" + NatToString(-n) else NatToString(n)
  }

  /** Distinct natural numbers have distinct decimal forms. */
  lemma {:induction false} NatToStringInjective(a: nat, b: nat)
    requires NatToString(a) == NatToString(b)
    ensures a == b
    decreases a
  {
    var s := NatToString(a);
    if a >= 10 {
      assert b >= 10;
      var pa, pb := NatToString(a / 10), NatToString(b / 10);
      assert s == pa + [DigitChar(a % 10)];
      assert s == pb + [DigitChar(b % 10)];
      assert DigitChar(a % 10) == s[|s| - 1] == DigitChar(b % 10);
      assert pa == s[..|s| - 1] == pb;
      NatToStringInjective(a / 10, b / 10);
    } else {
      assert b < 10;
      assert DigitChar(a) == s[0] == DigitChar(b);
    }
  }

  /** Distinct integers have distinct `str` forms. */
  lemma IntToStringInjective(a: int, b: int)
    requires IntToString(a) == IntToString(b)
    ensures a == b
  {
    var s := IntToString(a);
    if a < 0 {
      assert b < 0;
      assert NatToString(-a) == s[1..] == NatToString(-b);
      NatToStringInjective(-a, -b);
    } else {
      assert b >= 0;
      NatToStringInjective(a, b);
    }
  }
  /** A joined list starts with its first part. */
  lemma {:induction false} JoinStartsWithFirst(parts: seq<string>, sep: string)
    requires |parts| >= 1
    ensures parts[0] <= Join(parts, sep)
    decreases |parts|
  {
    if |parts| >= 2 {
      JoinStartsWithFirst(parts[..|parts| - 1], sep);
      assert parts[..|parts| - 1][0] == parts[0];
    }
  }

  /** The middle of `a + x + c` sits just before the last `|c|` characters. */
  lemma MiddleOf(a: string, x: string, c: string)
    ensures |x| + |c| <= |a + x + c|
    ensures (a + x + c)[|a + x + c| - |c| - |x|..|a + x + c| - |c|] == x
  {
    var s := a + x + c;
    assert s[|a|..|a| + |x|] == x;
  }

  /** The same text around two middles leaves the middles equal. */
  lemma CancelAround(a: string, x: string, y: string, c: string)
    requires a + x + c == a + y + c
    ensures x == y
  {
    var s := a + x + c;
    assert |x| == |y|;
    assert x == s[|a|..|a| + |x|] == y;
  }

  /** `str(a)` followed by text that does not start like a number can be
      split back into the number and the text. */
  lemma IntToStringThenText(a: int, x: string, b: int, y: string)
    requires x != [] && y != []
    requires !IsDigit(x[0]) && x[0] != '-' && !IsDigit(y[0]) && y[0] != '-'
    requires IntToString(a) + x == IntToString(b) + y
    ensures a == b && x == y
  {
    var na, nb := IntToString(a), IntToString(b);
    var s := na + x;
    assert s == nb + y;
    // the first character after either number is where the other would
    // still have a digit or '-', unless both numbers have the same length
    assert forall i :: 0 <= i < |na| ==> s[i] == '-' || IsDigit(s[i]);
    assert forall i :: 0 <= i < |nb| ==> s[i] == '-' || IsDigit(s[i]);
    assert s[|na|] == x[0];
    assert s[|nb|] == y[0];
    assert na == s[..|na|] == nb;
    IntToStringInjective(a, b);
    assert x == s[|na|..] == y;
  }
  lemma AppendAssoc<T>(a: seq<T>, b: seq<T>, c: seq<T>)
    ensures a + b + c == a + (b + c)
  {
  }
}

=== FILE: upstage_parse.dfy ===
/** The Upstage Document Parse adapter's response normaliser
    (tools/upstage_document_parse_tool.py): a flat list of layout elements is
    grouped into pages, each carrying its joined text, bounding boxes and table
    metadata. The HTTP call itself is not modelled; the parsed JSON body is the
    input. */
module UpstageParse {
  import opened Wrappers
  import opened Text

  /** The `content` object of an element; an absent key is `None`. */
  datatype Content = Content(markdown: Option<string>, text: Option<string>, html: Option<string>)

  /** One entry of `coordinates`: a `{x, y}` dictionary (either key may be
      missing) or a bare number. */
  datatype Coord = Point(x: Option<real>, y: Option<real>) | Scalar(v: real)

  /** The `coordinates` value: a list, or anything else. */
  datatype Coordinates = CoordList(items: seq<Coord>) | NotAList

  datatype Element = Element(
    page: Option<int>,
    category: Option<string>,
    content: Option<Content>,
    coordinates: Option<Coordinates>,
    hasBase64: bool)   // the element has a `base64_encoding` key

  /** The API's JSON body; only its `elements` key is read. */
  datatype Response = Response(elements: Option<seq<Element>>)

  datatype BBox = BBox(x0: Coord, y0: Coord, x1: Coord, y1: Coord, text: string)

  datatype TableInfo = TableInfo(category: string, text: string, hasBase64: bool)

  datatype Page = Page(page: int, text: string, bbox: seq<BBox>, tables: seq<TableInfo>, width: int, height: int)

  /** The page emitted when the response yields nothing. */
  const DefaultPage := Page(1, "", [], [], 0, 0)

  /** Separator placed between the texts of one page's elements. */
  const ElementSeparator := "\n\n"

  const BoxTextLimit := 100
  const TableTextLimit := 200

  /** `element.get("page", 1)` */
  function PageOf(e: Element): int {
    e.page.GetOr(1)
  }

  predicate IsTable(e: Element) {
    e.category.GetOr("") == "table"
  }

  /** A Python value that is truthy as a string: present and non-empty. */
  predicate Filled(o: Option<string>) {
    o.Some? && o.value != ""
  }

  /** Python's `a or b` for an optional string `a`. */
  function OrElse(a: Option<string>, b: string): string {
    if Filled(a) then a.value else b
  }

  function ContentOf(e: Element): Content {
    e.content.GetOr(Content(None, None, None))
  }

  /** The element's text: markdown when non-empty, else text when non-empty,
      else html, else the empty string. */
  function ElementText(e: Element): (r: string)
    ensures var c := ContentOf(e);
      && (r == "" <==> !Filled(c.markdown) && !Filled(c.text) && !Filled(c.html))
      && (Filled(c.markdown) ==> r == c.markdown.value)
      && (!Filled(c.markdown) && Filled(c.text) ==> r == c.text.value)
      && (!Filled(c.markdown) && !Filled(c.text) && Filled(c.html) ==> r == c.html.value)
  {
    var c := ContentOf(e);
    OrElse(c.markdown, OrElse(c.text, c.html.GetOr("")))
  }

  /** `text and text.strip()`: the text has a non-space character. */
  predicate HasText(t: string) {
    Strip(t) != []
  }

  /** Reads x (or y) of a `{x, y}` entry with default 0, or the bare entry itself. */
  function CoordX(c: Coord, fallback: Coord): Coord {
    if c.Point? then Scalar(c.x.GetOr(0.0)) else fallback
  }

  function CoordY(c: Coord, fallback: Coord): Coord {
    if c.Point? then Scalar(c.y.GetOr(0.0)) else fallback
  }

  /** The element has a `coordinates` list of at least four entries. */
  predicate HasCorners(e: Element) {
    e.coordinates.Some? && e.coordinates.value.CoordList? && |e.coordinates.value.items| >= 4
  }

  /** The bounding box of an element whose coordinates are a long enough list:
      corners 0 and 2 when they are points, entries 0..3 when they are numbers. */
  function BoxOf(e: Element, t: string): (r: BBox)
    requires HasCorners(e)
    ensures r.text == Prefix(t, BoxTextLimit) && |r.text| <= BoxTextLimit
    ensures var cs := e.coordinates.value.items;
      && (cs[0].Point? ==> r.x0 == Scalar(cs[0].x.GetOr(0.0)) && r.y0 == Scalar(cs[0].y.GetOr(0.0)))
      && (cs[0].Scalar? ==> r.x0 == cs[0] && r.y0 == cs[1])
      && (cs[2].Point? ==> r.x1 == Scalar(cs[2].x.GetOr(0.0)) && r.y1 == Scalar(cs[2].y.GetOr(0.0)))
      && (cs[2].Scalar? ==> r.x1 == cs[2] && r.y1 == cs[3])
  {
    var cs := e.coordinates.value.items;
    BBox(CoordX(cs[0], cs[0]), CoordY(cs[0], cs[1]), CoordX(cs[2], cs[2]), CoordY(cs[2], cs[3]),
         Prefix(t, BoxTextLimit))
  }

  /** What one element adds to its page. */
  datatype Contribution = Contribution(texts: seq<string>, boxes: seq<BBox>, tables: seq<TableInfo>)

  const NoContribution := Contribution([], [], [])

  function Concat(a: Contribution, b: Contribution): Contribution {
    Contribution(a.texts + b.texts, a.boxes + b.boxes, a.tables + b.tables)
  }

  /** Text and box only for a non-blank text; a table entry for every table,
      blank or not. */
  function ElementContribution(e: Element): Contribution {
    var t := ElementText(e);
    Contribution(
      if HasText(t) then [t] else [],
      if HasText(t) && HasCorners(e) then [BoxOf(e, t)] else [],
      if IsTable(e) then [TableInfo("table", Prefix(t, TableTextLimit), e.hasBase64)] else [])
  }

  /** Everything the elements of page `p` contribute, in input order. */
  function Gather(es: seq<Element>, p: int): Contribution
    decreases |es|
  {
    if es == [] then NoContribution
    else
      var before := Gather(es[..|es| - 1], p);
      if PageOf(es[|es| - 1]) == p then Concat(before, ElementContribution(es[|es| - 1])) else before
  }

  /** The distinct page numbers of the elements. */
  function PageKeys(es: seq<Element>): set<int>
    decreases |es|
  {
    if es == [] then {} else PageKeys(es[..|es| - 1]) + {PageOf(es[|es| - 1])}
  }

  predicate StrictlyAscending(xs: seq<int>) {
    forall i, j :: 0 <= i < j < |xs| ==> xs[i] < xs[j]
  }

  /** Inserts `x` into a strictly ascending sequence, keeping it so. */
  function InsertSorted(xs: seq<int>, x: int): (r: seq<int>)
    requires StrictlyAscending(xs)
    ensures StrictlyAscending(r)
    ensures forall y :: y in r <==> y in xs || y == x
    decreases |xs|
  {
    if xs == [] then [x]
    else if x < xs[0] then [x] + xs
    else if x == xs[0] then xs
    else
      assert forall k :: 0 <= k < |xs[1..]| ==> xs[0] < xs[1..][k] by {
        forall k | 0 <= k < |xs[1..]| ensures xs[0] < xs[1..][k] {
          assert xs[1..][k] == xs[k + 1];
        }
      }
      var rest := InsertSorted(xs[1..], x);
      assert forall k :: 0 <= k < |rest| ==> xs[0] < rest[k] by {
        forall k | 0 <= k < |rest| ensures xs[0] < rest[k] {
          assert rest[k] in rest;
        }
      }
      [xs[0]] + rest
  }

  /** `sorted(page_texts.keys())`: each page number once, ascending. */
  function SortedPages(es: seq<Element>): (r: seq<int>)
    ensures StrictlyAscending(r)
    ensures forall p :: p in r <==> p in PageKeys(es)
    decreases |es|
  {
    if es == [] then [] else InsertSorted(SortedPages(es[..|es| - 1]), PageOf(es[|es| - 1]))
  }

  function MakePage(p: int, c: Contribution): Page {
    Page(p, Join(c.texts, ElementSeparator), c.boxes, c.tables, 0, 0)
  }

  /** One page per key, in key order, from the grouping of `es`. */
  function PagesFor(es: seq<Element>, ks: seq<int>): (r: seq<Page>)
    ensures |r| == |ks|
    ensures forall i :: 0 <= i < |r| ==> r[i] == MakePage(ks[i], Gather(es, ks[i]))
    ensures forall i :: 0 <= i < |r| ==> r[i].page == ks[i] && r[i].width == 0 && r[i].height == 0
    ensures forall p :: p in ks <==> exists i :: 0 <= i < |r| && r[i].page == p
  {
    var pages := seq(|ks|, k requires 0 <= k < |ks| => MakePage(ks[k], Gather(es, ks[k])));
    forall p | p in ks
      ensures exists i :: 0 <= i < |pages| && pages[i].page == p
    {
      var i :| 0 <= i < |ks| && ks[i] == p;
      assert pages[i].page == p;
    }
    pages
  }

  /** `_parse_upstage_response`: one page per distinct page number, ascending,
      never an empty list. */
  function ParsedPages(resp: Response): (r: seq<Page>)
    ensures |r| >= 1
    ensures resp.elements.None? || resp.elements.value == [] ==> r == [DefaultPage]
    ensures resp.elements.Some? && resp.elements.value != [] ==>
      && (forall i, j :: 0 <= i < j < |r| ==> r[i].page < r[j].page)
      && (forall p :: p in PageKeys(resp.elements.value) <==> exists i :: 0 <= i < |r| && r[i].page == p)
    ensures forall i :: 0 <= i < |r| ==> r[i].width == 0 && r[i].height == 0
  {
    match resp.elements
    case None => [DefaultPage]
    case Some(es) =>
      var ks := SortedPages(es);
      if ks == [] then [DefaultPage]
      else
        assert es != [] ==> PageOf(es[|es| - 1]) in ks;
        PagesFor(es, ks)
  }

  // ---------------------------------------------------------------------
  // Facts about the grouping

  /** Page numbers are exactly those of some element. */
  lemma {:induction false} PageKeysMembers(es: seq<Element>, p: int)
    ensures p in PageKeys(es) <==> exists i :: 0 <= i < |es| && PageOf(es[i]) == p
    decreases |es|
  {
    if es != [] {
      var init := es[..|es| - 1];
      PageKeysMembers(init, p);
      if p in PageKeys(init) {
        var i :| 0 <= i < |init| && PageOf(init[i]) == p;
        assert es[i] == init[i];
      }
      if exists i :: 0 <= i < |es| && PageOf(es[i]) == p {
        var i :| 0 <= i < |es| && PageOf(es[i]) == p;
        if i < |init| {
          assert init[i] == es[i];
        }
      }
    }
  }

  /** A page number no element carries gathers nothing. */
  lemma {:induction false} GatherOffPage(es: seq<Element>, p: int)
    requires p !in PageKeys(es)
    ensures Gather(es, p) == NoContribution
    decreases |es|
  {
    if es != [] {
      GatherOffPage(es[..|es| - 1], p);
    }
  }

  /** The three lists a page gathers. */
  datatype Part = Texts | Boxes | Tables

  /** The length of one list of a contribution. */
  function PartSize(c: Contribution, k: Part): nat {
    match k
    case Texts => |c.texts|
    case Boxes => |c.boxes|
    case Tables => |c.tables|
  }

  /** Whether an element adds an entry to list `k` of page `p`: a text when
      its text is non-blank, a box when it also has four or more coordinates,
      a table entry when it is a table, whatever its text. */
  predicate Adds(e: Element, p: int, k: Part) {
    PageOf(e) == p &&
    match k
    case Texts => HasText(ElementText(e))
    case Boxes => HasText(ElementText(e)) && HasCorners(e)
    case Tables => IsTable(e)
  }

  /** Number of elements that add an entry to list `k` of page `p`. */
  ghost function CountAdds(es: seq<Element>, p: int, k: Part): nat
    decreases |es|
  {
    if es == [] then 0 else CountAdds(es[..|es| - 1], p, k) + (if Adds(es[|es| - 1], p, k) then 1 else 0)
  }

  /** Per page, each list holds one entry per element that adds to it. */
  lemma {:induction false} GatherCounts(es: seq<Element>, p: int, k: Part)
    ensures PartSize(Gather(es, p), k) == CountAdds(es, p, k)
    decreases |es|
  {
    if es != [] {
      var init, e := es[..|es| - 1], es[|es| - 1];
      GatherCounts(init, p, k);
      if PageOf(e) == p {
        assert Gather(es, p) == Concat(Gather(init, p), ElementContribution(e));
      } else {
        assert Gather(es, p) == Gather(init, p);
      }
    }
  }

  predicate AllNonBlank(ts: seq<string>) {
    forall i :: 0 <= i < |ts| ==> HasText(ts[i])
  }

  predicate AllWithinLimit(ts: seq<TableInfo>) {
    forall i :: 0 <= i < |ts| ==> |ts[i].text| <= TableTextLimit
  }

  /** Every text a page keeps is non-blank. */
  lemma {:induction false} GatherTextsNonBlank(es: seq<Element>, p: int)
    ensures AllNonBlank(Gather(es, p).texts)
    decreases |es|
  {
    if es != [] {
      var init, e := es[..|es| - 1], es[|es| - 1];
      GatherTextsNonBlank(init, p);
      if PageOf(e) == p {
        var a, c := Gather(init, p).texts, ElementContribution(e).texts;
        assert Gather(es, p).texts == a + c;
        assert AllNonBlank(c);
        assert forall i :: 0 <= i < |a + c| ==> (a + c)[i] == if i < |a| then a[i] else c[i - |a|];
      } else {
        assert Gather(es, p) == Gather(init, p);
      }
    }
  }

  /** Every table entry a page keeps holds at most 200 characters of text. */
  lemma {:induction false} GatherTablesWithinLimit(es: seq<Element>, p: int)
    ensures AllWithinLimit(Gather(es, p).tables)
    decreases |es|
  {
    if es != [] {
      var init, e := es[..|es| - 1], es[|es| - 1];
      GatherTablesWithinLimit(init, p);
      if PageOf(e) == p {
        var a, c := Gather(init, p).tables, ElementContribution(e).tables;
        assert Gather(es, p).tables == a + c;
        assert AllWithinLimit(c);
        assert forall i :: 0 <= i < |a + c| ==> (a + c)[i] == if i < |a| then a[i] else c[i - |a|];
      } else {
        assert Gather(es, p) == Gather(init, p);
      }
    }
  }

  /** A page whose elements all have blank text is still emitted, with empty text. */
  lemma BlankPageListed(resp: Response, p: int)
    requires resp.elements.Some?
    requires p in PageKeys(resp.elements.value)
    requires forall e :: e in resp.elements.value && PageOf(e) == p ==> !HasText(ElementText(e))
    ensures exists i :: 0 <= i < |ParsedPages(resp)| && ParsedPages(resp)[i].page == p
                        && ParsedPages(resp)[i].text == ""
  {
    var es := resp.elements.value;
    var r := ParsedPages(resp);
    assert es != [];
    var i :| 0 <= i < |r| && r[i].page == p;
    BlankTexts(es, p);
    var ks := SortedPages(es);
    assert r[i] == MakePage(ks[i], Gather(es, ks[i]));
    assert r[i].text == Join([], ElementSeparator) == "";
    assert 0 <= i < |ParsedPages(resp)| && ParsedPages(resp)[i].page == p && ParsedPages(resp)[i].text == "";
  }

  lemma {:induction false} BlankTexts(es: seq<Element>, p: int)
    requires forall e :: e in es && PageOf(e) == p ==> !HasText(ElementText(e))
    ensures Gather(es, p).texts == []
    decreases |es|
  {
    if es != [] {
      BlankTexts(es[..|es| - 1], p);
    }
  }

  /** An element without a `page` key lands on page 1. */
  lemma MissingPageIsPageOne(resp: Response, e: Element)
    requires resp.elements.Some? && e in resp.elements.value && e.page.None?
    ensures exists i :: 0 <= i < |ParsedPages(resp)| && ParsedPages(resp)[i].page == 1
  {
    var es := resp.elements.value;
    var k :| 0 <= k < |es| && es[k] == e;
    assert PageOf(es[k]) == 1;
    PageKeysMembers(es, 1);
    assert es != [] && 1 in PageKeys(es);
    var r := ParsedPages(resp);
    assert exists i :: 0 <= i < |r| && r[i].page == 1;
  }

  /** The tail of a strictly ascending sequence holds every member but the first. */
  lemma AscendingTail(a: seq<int>, x: int)
    requires StrictlyAscending(a) && a != []
    ensures x in a[1..] <==> x in a && x != a[0]
  {
    if x in a[1..] {
      var i :| 0 <= i < |a[1..]| && a[1..][i] == x;
      assert a[i + 1] == x;
    }
    if x in a && x != a[0] {
      var i :| 0 <= i < |a| && a[i] == x;
      assert a[1..][i - 1] == x;
    }
  }

  /** The first element of a strictly ascending sequence is its least. */
  lemma AscendingHead(a: seq<int>, x: int)
    requires StrictlyAscending(a) && x in a
    ensures a[0] <= x
  {
    var i :| 0 <= i < |a| && a[i] == x;
    assert i == 0 || a[0] < a[i];
  }

  /** Two strictly ascending sequences with the same members are equal. */
  lemma {:induction false} AscendingUnique(a: seq<int>, b: seq<int>)
    requires StrictlyAscending(a) && StrictlyAscending(b)
    requires forall x :: x in a <==> x in b
    ensures a == b
    decreases |a|
  {
    assert a == [] <==> b == [] by {
      assert a != [] ==> a[0] in a;
      assert b != [] ==> b[0] in b;
    }
    if a != [] {
      assert a[0] in a && b[0] in b;
      AscendingHead(b, a[0]);
      AscendingHead(a, b[0]);
      forall x
        ensures x in a[1..] <==> x in b[1..]
      {
        AscendingTail(a, x);
        AscendingTail(b, x);
      }
      AscendingUnique(a[1..], b[1..]);
      assert a == [a[0]] + a[1..] && b == [b[0]] + b[1..];
    }
  }

  // ---------------------------------------------------------------------
  // The source's single pass

  /** `sorted(keys)`: the keys in ascending order, each once. */
  method SortKeys(keys: seq<int>) returns (r: seq<int>)
    ensures StrictlyAscending(r)
    ensures forall x :: x in r <==> x in keys
  {
    r := [];
    var i := 0;
    while i < |keys|
      invariant 0 <= i <= |keys|
      invariant StrictlyAscending(r)
      invariant forall x :: x in r <==> x in keys[..i]
    {
      assert keys[..i + 1] == keys[..i] + [keys[i]];
      r := InsertSorted(r, keys[i]);
      i := i + 1;
    }
    assert keys[..i] == keys;
  }

  /** What one more element changes in the grouping of one page. */
  lemma GatherStep(es: seq<Element>, i: nat, p: int)
    requires i < |es|
    ensures Gather(es[..i + 1], p) ==
              if PageOf(es[i]) == p then Concat(Gather(es[..i], p), ElementContribution(es[i]))
              else Gather(es[..i], p)
  {
    assert es[..i + 1][..i] == es[..i] && es[..i + 1][i] == es[i];
  }

  /** The page numbers met in a prefix grow by the page of the next element. */
  lemma PageKeysStep(es: seq<Element>, i: nat)
    requires i < |es|
    ensures PageKeys(es[..i + 1]) == PageKeys(es[..i]) + {PageOf(es[i])}
  {
    assert es[..i + 1][..i] == es[..i] && es[..i + 1][i] == es[i];
  }

  /** One iteration of the grouping loop keeps the dictionary equal to the
      grouping of the elements seen so far. */
  lemma GroupStep(es: seq<Element>, i: nat, acc: map<int, Contribution>)
    requires i < |es|
    requires acc.Keys == PageKeys(es[..i])
    requires forall q :: q in acc ==> acc[q] == Gather(es[..i], q)
    ensures var p := PageOf(es[i]);
      var next := acc[p := Concat(if p in acc then acc[p] else NoContribution, ElementContribution(es[i]))];
      && next.Keys == PageKeys(es[..i + 1])
      && forall q :: q in next ==> next[q] == Gather(es[..i + 1], q)
  {
    var p := PageOf(es[i]);
    var before := if p in acc then acc[p] else NoContribution;
    if p !in acc {
      GatherOffPage(es[..i], p);
    }
    var next := acc[p := Concat(before, ElementContribution(es[i]))];
    PageKeysStep(es, i);
    forall q | q in next
      ensures next[q] == Gather(es[..i + 1], q)
    {
      GatherStep(es, i, q);
    }
  }

  /** The source's loop over the elements: a dictionary from page number to
      what that page's elements contributed so far, and its keys in insertion
      order. */
  method GroupByPage(es: seq<Element>) returns (acc: map<int, Contribution>, keys: seq<int>)
    ensures acc.Keys == PageKeys(es)
    ensures forall p :: p in keys <==> p in acc
    ensures forall p :: p in acc ==> acc[p] == Gather(es, p)
  {
    acc := map[];
    keys := [];
    var i := 0;
    while i < |es|
      invariant 0 <= i <= |es|
      invariant acc.Keys == PageKeys(es[..i])
      invariant forall p :: p in keys <==> p in acc
      invariant forall p :: p in acc ==> acc[p] == Gather(es[..i], p)
    {
      var p := PageOf(es[i]);
      GroupStep(es, i, acc);
      if p !in acc {
        keys := keys + [p];
      }
      acc := acc[p := Concat(if p in acc then acc[p] else NoContribution, ElementContribution(es[i]))];
      i := i + 1;
    }
    assert es[..|es|] == es;
  }

  /** The emitting loop: one page per key, in key order, each built from what
      the dictionary gathered for it. */
  method EmitPages(keys: seq<int>, acc: map<int, Contribution>, es: seq<Element>) returns (pages: seq<Page>)
    requires forall k :: k in keys ==> k in acc && acc[k] == Gather(es, k)
    ensures |pages| == |keys|
    ensures forall k :: 0 <= k < |keys| ==> pages[k] == MakePage(keys[k], Gather(es, keys[k]))
  {
    pages := [];
    var j := 0;
    while j < |keys|
      invariant 0 <= j <= |keys|
      invariant |pages| == j
      invariant forall k :: 0 <= k < j ==> pages[k] == MakePage(keys[k], Gather(es, keys[k]))
    {
      assert keys[j] in keys;
      pages := pages + [MakePage(keys[j], acc[keys[j]])];
      j := j + 1;
    }
  }

  /** The source's algorithm: one pass over the elements filling a dictionary
      keyed by page number, then the pages in sorted key order, then the
      default page if there were none. It computes exactly `ParsedPages`. */
  method ParseUpstageResponse(resp: Response) returns (pages: seq<Page>)
    ensures pages == ParsedPages(resp)
  {
    pages := [];
    if resp.elements.Some? {
      var es := resp.elements.value;
      var acc, order := GroupByPage(es);
      var keys := SortKeys(order);
      AscendingUnique(keys, SortedPages(es));
      pages := EmitPages(keys, acc, es);
      EmissionAgrees(resp, pages);
    }
    if pages == [] {
      pages := [DefaultPage];
    }
  }

  /** The pages emitted in sorted key order are those of `ParsedPages`. */
  lemma EmissionAgrees(resp: Response, pages: seq<Page>)
    requires resp.elements.Some?
    requires var ks := SortedPages(resp.elements.value);
      && |pages| == |ks|
      && forall k :: 0 <= k < |ks| ==> pages[k] == MakePage(ks[k], Gather(resp.elements.value, ks[k]))
    ensures (if pages == [] then [DefaultPage] else pages) == ParsedPages(resp)
  {
  }

  /** `process`: fallback reprocessing is a pass-through for this backend. */
  function Process(pages: seq<Page>, documentPath: string): (r: seq<Page>)
    ensures r == pages
  {
    pages
  }
}

=== FILE: wrappers.dfy ===
/** Optional values and success/failure results, standing in for Python's
    `None`, `dict.get(key, default)` and raised exceptions. */
module Wrappers {

  /** A value that may be absent: a missing dictionary key or a `None`. */
  datatype Option<+T> = None | Some(value: T) {

    /** The carried value, or `default` when absent (`d.get(k, default)`). */
    function GetOr(default: T): T {
      match this
      case Some(v) => v
      case None => default
    }
  }

  /** The outcome of a call that may raise: a value or the exception's message. */
  datatype Result<+T> = Success(value: T) | Failure(error: string)
}
